=== FILE: README.md ===
# Colour, modular-scale and token helpers of a style toolkit, in Dafny

This project models the pure helpers of a small CSS-in-JS style toolkit.
They live in `src/utils/index.js`, and the typography configuration in
`src/config/typography.js` uses them.

- **Colour strings.** `colorStringToRGBAArray` parses a colour string into an array of channels:
  - the empty string gives no colour;
  - `transparent` in any case gives `[0,0,0,0]`;
  - `#RGB`, `#RGBA`, `#RRGGBB` and `#RRGGBBAA` give their bytes, with alpha as a byte over 255;
  - an `rgb(...)` or `rgba(...)` string gives the maximal runs of `[.\d]` it contains, read as numbers, with `, 1` appended first when it has no `rgba`.

  Named colours are resolved by the browser. Here that lookup is a parameter, `Resolver`.
- **Mixing.** `mixTwoRGB` and `mixTwoRGBA` blend two channel arrays as `a + (b - a) * range`:
  - every colour channel goes through `Math.round`;
  - the alpha channel of `mixTwoRGBA` stays exact.

  `mixTwoColors` parses two strings and mixes them. `opacify` overwrites slot 3 of a parse.
- **Modular scale.** `generateSequence` counts offsets down from `range[1]`. For each offset it computes `base * ratio^k` and records three values:
  - the value rounded to two decimals;
  - the value rounded to an integer;
  - the scaling `ratio^k`, rounded to three decimals.

  It stores them in the caller's `sequence` and `scales` objects under the label `--<type>-<letter>`. The letters come from `numToLetterMap`, which covers offsets -6..9. Any other offset prints as `undefined`.
- **Tokens.**
  - `fallBack` looks a key up in a generated table.
  - `mapPadding` spreads an array of 2, 3 or 4 sides over logical padding properties.
  - `mapFontSize` looks up font sizes.
  - `merge` fills the `undefined` properties of an object from defaults.
- **Typography.** The typography configuration runs `generateSequence` once, with base 16 over `[-3, 7]`. The model computes its table with `Scale.GenerateSequenceCorrected` (see Findings). `Typography.Table` proves that the call as written gives the same tables.

Modules follow the program:

| module | file | concern |
|---|---|---|
| `Wrappers` | wrappers.dfy | `Option`, standing for `undefined` results |
| `Numbers` | numbers.dfy | channels as `Finite`/`NaN`/`Undefined`, `Math.round`, `Math.pow` with an integer exponent |
| `Text` | text.dfy | `toLowerCase`, `indexOf`, the global match of `[.\d]+`, unary `+` |
| `Colour` | colour.dfy | `colorStringToRGBAArray` |
| `Mixing` | mixing.dfy | `mixTwoRGB`, `mixTwoRGBA`, `mixTwoColors`, `opacify` |
| `Scale` | scale.dfy | `numToLetterMap`, `generateSequence` |
| `Tokens` | tokens.dfy | `fallBack`, `mapPadding`, `mapFontSize` |
| `Objects` | objects.dfy | `merge` |
| `Typography` | typography.dfy | `defaultProps` and the table generated from it |

How JavaScript behaviour is modelled:

- **Numbers** are mathematical reals.
  - `Math.round(x)` is `floor(x + 0.5)`.
  - `Math.pow(ratio, k)` for an integer `k` is repeated multiplication, or its reciprocal for negative `k`.
  - A channel can be `NaN` (for example `+"1.2.3"`, or arithmetic on a missing channel).
  - A channel can also be `undefined` (a slot past the end of an array).
- **Mutation.** `generateSequence` updates the caller's tables in place, and `merge` updates `obj` in place. The model returns the updated tables or object instead.
- **Preconditions.** Preconditions exclude the inputs on which the source throws:
  - an `rgb` string with no number run, where `match` gives `null` and `.map` throws (`ParseDefined`);
  - a failed parse, which `mixTwoColors` and `opacify` index.

  They also exclude, by choice, some inputs on which the source does not throw:
  - malformed hex input (`ParseDefined`). Too few digits, as in `'#12'`, expand to `'#1122undefinedundefined'`, which gives a NaN channel. With a character that is not a hex digit, `parseInt` reads only the hex digits in front of it: `'#1g2345'` gives the ordinary colour `[1, 35, 69, 1]`, and `'#g12345'` gives a NaN red channel;
  - a zero base, which makes every scaling `0/0` (NaN), and a zero ratio, which gives `Infinity` at negative offsets (`Valid`).

## Model

| member | source | states |
|---|---|---|
| Numbers.Round | src/utils/index.js:80-84 | `Math.round` gives the integer within half of `x`, halves going up |
| Numbers.RoundNum | src/utils/index.js:92-97 | rounding a channel turns NaN and `undefined` into NaN and makes finite values whole, within half of the input |
| Numbers.Pow | src/utils/index.js:154 | `Math.pow(ratio, k)` is the natural power for `k >= 0`, and its product with the power `-k` is 1 for `k < 0`; it is never 0 for a nonzero ratio |
| Numbers.PowGrows | src/utils/index.js:154 | a ratio of at least 1 never gives a smaller power at a higher offset |
| Numbers.PowStep | src/utils/index.js:154 | for a nonzero ratio, each offset multiplies the power by the ratio, including across negative exponents |
| Text.ToLower | src/utils/index.js:27 | lower-casing keeps the length and folds each character on its own |
| Text.IndexOf | src/utils/index.js:40 | `indexOf` is -1 exactly when the word never occurs; otherwise it is the first occurrence |
| Text.Runs | src/utils/index.js:57 | every match of `[.\d]+` is nonempty and made of number characters |
| Text.RunsKeepOrder | src/utils/index.js:57 | the matches concatenated are exactly the number characters of the string, in order |
| Text.RunsSeparated | src/utils/index.js:56-57 | text joined at a non-number character has the matches of both parts, in order |
| Text.RunsSkip | src/utils/index.js:57 | leading characters outside `[.\d]` add no match |
| Text.ToNumber | src/utils/index.js:57 | unary `+` reads a digit run as its decimal value, and `.` as NaN |
| Text.ToNumberPoint | src/utils/index.js:57 | a run `p.q` of digits, one point and digits, with at least one digit, reads as `p` plus `q` over ten to the length of `q`, as in `"0.5"`, `".25"` or `"7."` |
| Text.ToNumberTwoPoints | src/utils/index.js:57 | a run with a second point, such as `"1.2.3"`, reads as NaN |
| Colour.Expand | src/utils/index.js:29-32 | short hex forms are widened to at least `#RRGGBB`, and longer forms are left alone |
| Colour.Substr | src/utils/index.js:33-36 | `substr(start, len)` is the `len` characters from `start`, cut short at the end of the string, and empty from past the end |
| Colour.HexByte | src/utils/index.js:33-36 | `parseInt(s, 16)` of one digit is its value; of two digits it is a byte whose high and low nibbles are the two digits |
| Colour.HexChannels | src/utils/index.js:33-36 | the hex branch always yields whole bytes for R, G, B and an alpha in [0, 1] |
| Colour.Computed | src/utils/index.js:40-52 | a string mentioning `rgb` anywhere is used as it stands; any other string is what the host resolves it to |
| Colour.Parse | src/utils/index.js:25-59 | `''` gives no colour; `transparent` gives `[0,0,0,0]`; hex gives a valid RGBA; other colours come only from an `rgb` string at index 0 |
| Colour.TransparentAnyCase | src/utils/index.js:27 | every capitalisation of `transparent` parses to all zeros |
| Colour.ShortHex | src/utils/index.js:29-36 | `#RGB` parses exactly like `#RRGGBB` |
| Colour.ShortHexAlpha | src/utils/index.js:29-36 | `#RGBA` parses exactly like `#RRGGBBAA` |
| Colour.ExpandShort | src/utils/index.js:29-32 | `#RGB` expands to `#RRGGBB`, so both have the same channels |
| Colour.ExpandShortAlpha | src/utils/index.js:29-32 | `#RGBA` expands to `#RRGGBBAA`, so both have the same channels |
| Colour.HexBytes | src/utils/index.js:33-36 | the channels are the byte pairs, and alpha is the fourth byte over 255, else exactly 1 |
| Colour.WhiteShortHex | src/utils/index.js:30-36 | `#FFF` is `[255,255,255,1]` |
| Colour.RgbIsNotTransparent | src/utils/index.js:27 | no string starting with `rgb` reads as `transparent` |
| Colour.WithAlpha | src/utils/index.js:56 | without `rgba`, the appended `, 1` adds exactly one number run, `1`, after the string's own runs; with `rgba` the string is unchanged |
| Colour.AlphaAppended | src/utils/index.js:56-57 | appending `, 1` adds the single number 1 after the string's own numbers |
| Colour.RgbGetsOpaqueAlpha | src/utils/index.js:54-58 | an `rgb` string without `rgba` yields its numbers in source order, then alpha 1 |
| Colour.RgbNotAtStart | src/utils/index.js:40-59 | a string mentioning `rgb` anywhere other than at index 0 yields no colour |
| Colour.RgbStringRuns | src/utils/index.js:57 | the matches of `rgb(x,y,z)` are `x`, `y`, `z` |
| Colour.RgbTriple | src/utils/index.js:54-58 | `rgb(x,y,z)` with decimal channels parses to those integers plus alpha 1 |
| Colour.RgbaKeepsRuns | src/utils/index.js:54-58 | an `rgb` string at index 0 that mentions `rgba` yields its own numbers, with no alpha appended |
| Colour.RgbaStringRuns | src/utils/index.js:57 | the matches of `rgba(x,y,z,a)` are `x`, `y`, `z`, `a` |
| Colour.RgbaQuad | src/utils/index.js:54-58 | `rgba(x,y,z,a)` parses to the numbers of its four runs |
| Colour.RgbaFractionalAlpha | src/utils/index.js:54-58 | `rgba(x,y,z,p.q)` parses to the three integers and the alpha `p` plus the fraction `q` |
| Mixing.Blend | src/utils/index.js:81-82 | `a + (b-a)*range` is the affine mix `a(1-range) + b*range`, and NaN unless both channels are numbers |
| Mixing.MixChannel | src/utils/index.js:92-97 | a mixed channel is the rounded blend or the exact blend, as asked |
| Mixing.MixTwoRGB | src/utils/index.js:77-87 | three channels, each the rounded blend of the inputs' channels |
| Mixing.MixTwoRGBA | src/utils/index.js:89-100 | four channels; R, G, B rounded, alpha the exact blend |
| Mixing.MixersAgree | src/utils/index.js:77-100 | both mixers give the same colour channels |
| Mixing.MixEndpoints | src/utils/index.js:77-100 | for four-channel colours, range 0 returns colour A and range 1 returns colour B, from both mixers |
| Mixing.MixSelf | src/utils/index.js:77-100 | a four-channel colour mixed with itself is unchanged at every range, by both mixers |
| Mixing.MixRgbEndpoints | src/utils/index.js:77-87 | `mixTwoRGB` on any colours with three whole channels returns colour A at range 0 and colour B at range 1 |
| Mixing.MixRgbSelf | src/utils/index.js:77-87 | `mixTwoRGB` of a three-channel colour with itself returns it at every range |
| Mixing.MixSymmetric | src/utils/index.js:89-100 | mixing A into B at `range` is mixing B into A at `1 - range` |
| Mixing.BlendBetween | src/utils/index.js:81-82 | for range in [0, 1] the blend lies between the endpoints |
| Mixing.RoundedBlendBetween | src/utils/index.js:79-85 | for range in [0, 1], rounding a blend of whole channels stays between them |
| Mixing.ExactBlendInUnit | src/utils/index.js:92-97 | the unrounded alpha blend of two alphas in [0, 1], at a range in [0, 1], is an alpha in [0, 1] |
| Mixing.MixStaysInGamut | src/utils/index.js:89-100 | mixing two valid RGBA colours with range in [0, 1] gives a valid RGBA colour |
| Mixing.MixExample | src/utils/index.js:89-100 | black and white at 0.5 give grey 128, since 127.5 rounds up |
| Mixing.MixTwoColors | src/utils/index.js:61-65 | mixing two strings blends their parses channel by channel |
| Mixing.MixTwoHexColors | src/utils/index.js:61-65 | two hex colours mix into a valid colour, and a hex colour mixed with itself is its parse |
| Mixing.Opacify | src/utils/index.js:102-106 | slot 3 becomes `opacity` with no range check; other slots keep the parse, with `undefined` gaps |
| Mixing.OpacifyHex | src/utils/index.js:102-106 | a hex colour keeps R, G, B and takes `opacity` as alpha |
| Mixing.OpacifyFour | src/utils/index.js:102-106 | a four-channel parse keeps its first three channels |
| Mixing.OpacifyRgb | src/utils/index.js:102-106 | `rgb(x,y,z)` becomes `[x, y, z, opacity]` |
| Scale.Letter | src/utils/index.js:130-147 | offsets -6..9 have a capital letter and no other offset has one |
| Scale.LetterInjective | src/utils/index.js:130-147 | no two offsets share a letter |
| Scale.Label | src/utils/index.js:156 | a label is `--`, the type, `-`, then the offset's letter, or `undefined` when the offset has none |
| Scale.LabelInjective | src/utils/index.js:156 | two offsets share a label only if equal or both outside -6..9 |
| Scale.StepAt | src/utils/index.js:153-160 | `val` is the rounded `base*ratio^k`; `scaling` is `ratio^k` rounded to three decimals |
| Scale.StepAtZero | src/utils/index.js:153-160 | offset 0 has scaling exactly 1 and `val` `round(base)` |
| Scale.LabelsCount | src/utils/index.js:151-156 | distinct labels for distinct offsets give one name per offset |
| Scale.FillKeys | src/utils/index.js:151-162 | the loop adds exactly the labels of the visited offsets, to both tables |
| Scale.FillKeeps | src/utils/index.js:157-162 | entries under labels the loop does not visit are untouched |
| Scale.FillParallel | src/utils/index.js:157-162 | every visited label's `scales` entry is its `sequence` entry's scaling |
| Scale.FillLast | src/utils/index.js:151-162 | an offset whose label is not reused later keeps its own entry |
| Scale.InRangeWrittenLast | src/utils/index.js:130-156 | a lettered offset's entry is never overwritten by a later offset |
| Scale.LastUnlettered | src/utils/index.js:130-156 | finds the lowest visited offset without a letter, if any |
| Scale.UnletteredWrittenLast | src/utils/index.js:151-158 | the shared `undefined` label ends up holding the entry of the lowest unlettered offset |
| Scale.Generate | src/utils/index.js:149-165 | the loop's effect: exact new keys, other entries kept, lettered offsets' own entries, the `undefined` label's last entry, `scales` mirroring scalings |
| Scale.LastIndex | src/utils/index.js:150 | `abs(range[0]) + abs(range[1])` is the range width exactly when the range straddles 0, and never less |
| Scale.GenerateSequence | src/utils/index.js:149-165 | the tables gain the labels of offsets `range[1]` down to `range[1] - LastIndex` |
| Scale.GenerateSequenceCorrected | src/utils/index.js:149-165 | visiting exactly `range[0]..range[1]` adds those labels and each lettered offset's entry |
| Scale.StraddlingAgrees | src/utils/index.js:150-152 | when `range[0] <= 0 <= range[1]`, the loop as written visits exactly the range |
| Scale.OffsideOvershoots | src/utils/index.js:150-152 | otherwise it visits offsets below `range[0]` |
| Scale.OvershootExample | src/utils/index.js:150-156 | `[2, 5]` writes the `Y` entry of offset -2, outside the range |
| Scale.InRangeCount | src/utils/index.js:130-156 | a range inside -6..9 gives one entry per offset, and no `undefined` label |
| Tokens.KeyOf | src/utils/index.js:167 | the key is `val`, or `--font-size-A` when `val` is `undefined` |
| Tokens.StyleOf | src/utils/index.js:170-173 | the two members with the same computed key leave one property, `prop`, holding the scaling in `em` |
| Tokens.FallBack | src/utils/index.js:167-174 | a miss or a missing table gives nothing; a hit gives one property holding only `scaling` em |
| Tokens.FallBackNeverAbsolute | src/utils/index.js:171-172 | the duplicate key drops the absolute length: every returned value is in em |
| Tokens.Join | src/utils/index.js:168 | an array used as a key is its elements joined by commas: a one-element array is its element, and an empty one is the empty string |
| Tokens.JoinAppend | src/utils/index.js:168 | appending an element to a nonempty array appends a comma and that element to its key, so two or more elements are comma-separated |
| Tokens.SideNames | src/utils/index.js:178-193 | 2, 3 or 4 sides get that many distinct properties, alternating block and inline axis starting with block; any other length gets none |
| Tokens.MapPadding | src/utils/index.js:176-196 | 2, 3 or 4 sides map to fixed logical properties, each looking up the whole array; other inputs give one `padding` lookup |
| Tokens.MapPaddingUniform | src/utils/index.js:177 | all sides of one array resolve alike, since a side's position never selects its element |
| Tokens.MapPaddingWholeKey | src/utils/index.js:177-182 | `["A","B"]` looks up `"A,B"`, so entries for `A` and `B` alone resolve nothing |
| Tokens.MapPaddingCorrected | src/utils/index.js:176-196 | with `val[i]` looked up per side, side `i` resolves its own element |
| Tokens.MapPaddingPerSide | src/utils/index.js:177-182 | corrected, `["A","B"]` resolves `paddingBlock` from `A` and `paddingInline` from `B` |
| Tokens.MapFontSize | src/utils/index.js:198 | `fontSize` in em from the typography table, or nothing on a miss |
| Objects.MergedOnStep | src/utils/index.js:15-21 | one iteration changes only the visited property, and only when it was `undefined` |
| Objects.Merged | src/utils/index.js:14-23 | keys are the union; defined properties of `obj` stay; `undefined` ones take the default |
| Objects.Merge | src/utils/index.js:14-23 | the loop over `original` leaves exactly the object `Merged` describes |
| Objects.MergedIdempotent | src/utils/index.js:14-23 | merging the same defaults twice changes nothing more |
| Objects.MergedFillsDefaults | src/utils/index.js:18-19 | a property with a defined default is never left `undefined` |
| Typography.DefaultProps | src/config/typography.js:6-13 | base 16 over `[-3, 7]`: eleven offsets straddling 0 |
| Typography.Table | src/config/typography.js:6-15 | the tables the load-time call as written fills are those of a loop that visits exactly `[-3, 7]` |
| Typography.TableLabels | src/config/typography.js:11-15 | `sequence` and `scales` end with the same keys, one label per offset -3..7 |
| Typography.TableHasElevenEntries | src/config/typography.js:10-15 | exactly 11 entries, none under the `undefined` label |
| Typography.TableEnds | src/config/typography.js:8-10 | labels run from `--font-size-H` down to `--font-size-X` |
| Typography.TableBaseEntry | src/config/typography.js:7-15 | `--font-size-A` has value 16, two-decimal value 16 and scaling 1 in both tables, for any ratio |
| Typography.DefaultFontSize | src/utils/index.js:167-172 | with no argument, font-size lookup on this table gives `1em` |

## Left out

- The named-colour branch (src/utils/index.js:39-52) creates a DOM element and reads its computed style. It is the `Resolver` parameter. Its early returns become `None`, and the element it leaks is not modelled.
- IEEE-754 rounding of `Math.pow`, the multiplications and the divisions is not modelled. Values are exact reals.
- The string forms `rgb(${arr})` and `rgba(${arr})` that the mixers and `opacify` return, and the `scaling + 'em'` text, are not modelled. The model returns channel sequences and `Em(scaling)` values.
- The unit in `value.val + Unit.default` is not modelled. The config module it comes from is not part of this model, and the value is discarded anyway.
- Ratio or base 0 is excluded by `Valid`. A zero base gives NaN scalings and a zero ratio gives `Infinity` at negative offsets. Neither is a real number, and the source does not throw on them.
- `console.warn` in `fallBack` and `console.log` in the typography module are side effects. A miss is `None`.
- `getFontFormat`, `setCustomFont` and `getFontFace` (src/utils/index.js:108-128) are left out. They are string templating with no logic to prove. `setCustomFont` passes the URL itself to `format(...)` where the font format is evidently meant.
- `hexToRGB` and `hexToRGBA` (src/utils/index.js:67-75) are left out. The parser and mixers do not use them.
- `isArray` and `isObjectLike` (src/utils/index.js:7-12) are not separate members. `mapPadding`'s argument is a datatype that already separates arrays from other values.
- Broken module wiring is left out:
  - `src/utils/index.js` imports a `settings` object from the typography config, which does not export one. It also imports one from the spacing config, which is not part of this model.
  - The typography module imports the unexported `fallBack` and calls it with one object.
  - `MapFontSize` and `MapPadding` therefore take the table as an explicit parameter.
- The `SEQUENCE` ratio table and the spacing configuration are not part of this model. The typography lemmas hold for every nonzero ratio.
- Colour.Parse: malformed hex input is outside its precondition by choice. This covers too few digits and characters that are not hex digits. The source does not throw there. A short colour expands with `undefined` text: `'#12'` becomes `'#1122undefinedundefined'`, which gives `[17, 34, NaN, 222/255]`. A pair with a non-hex character parses its leading hex digits, if any, so `'#1g2345'` gives `[1, 35, 69, 1]` and `'#g12345'` a NaN red channel. The model does not describe these results. An `rgb` string with no number run, where the source throws, is outside the precondition too.
- Text.ToLower: folds only `A`-`Z`. Other characters' lower-casing is not modelled. No other character lower-cases into the ASCII letters of `transparent`, so the comparison the parser makes is unaffected.
- Tokens.MapPadding: array elements are strings. Arrays with nested arrays, `null` or `undefined` elements, which `String(array)` prints differently, are not modelled. Non-string primitives are given as the string they convert to.
- Mixing.MixTwoRGB: `range` is always passed. The source's default of 0.5 (src/utils/index.js:77) is the caller's choice.
- Mixing.MixTwoRGBA: `range` is always passed. The source's default of 0.5 (src/utils/index.js:89) is the caller's choice.
- Mixing.MixTwoColors: `range` is always passed. The source's default of 0.5 (src/utils/index.js:61) is the caller's choice.
- Tokens.FallBack: keys that name members inherited from `Object.prototype`, such as `constructor` or `toString`, are not modelled. On a plain object table the source reads the inherited member, which is truthy, and returns `{ [prop]: 'undefinedem' }`. The model finds no entry and returns `None`. Tokens.MapFontSize and Tokens.MapPadding inherit this.
- Objects.Merge: values are generic. JavaScript's prototype chain and non-enumerable properties are not modelled.

## Findings

| source | as written | input that shows it | evidently intended | confidence | as-written member | corrected member |
|---|---|---|---|---|---|---|
| src/utils/index.js:150-152 | the loop runs `i = 0 .. abs(range[0]) + abs(range[1])` and visits `range[1] - i` | `range = [2, 5]` visits 5 down to -2 and writes `--<type>-Y` for offset -2 | visit `range[1]` down to `range[0]` (the two agree when the range straddles 0) | medium; not executed | Scale.GenerateSequence; Scale.OvershootExample | Scale.GenerateSequenceCorrected; Scale.StraddlingAgrees |
| src/utils/index.js:177 | `wrapFallBack(prop, i)` ignores `i` and looks up the whole `val` for every side | `["A", "B"]` looks up `"A,B"` for both sides, and a table with `A` and `B` resolves neither | side `i` looks up `val[i]` | medium; not executed | Tokens.MapPadding; Tokens.MapPaddingWholeKey | Tokens.MapPaddingCorrected; Tokens.MapPaddingPerSide |

=== FILE: colour.dfy ===
/** `colorStringToRGBAArray` (src/utils/index.js): a colour string to an
    array of channels, or `undefined`. */
module Colour {
  import opened Wrappers
  import opened Numbers
  import opened Text

  /** The host's colour resolution for a name such as `"red"`: the computed
      `rgb(...)` string the browser reports, or None when the probe element
      cannot be styled (the early returns of the named-colour branch). */
  type Resolver = string -> Option<string>

  const Transparent: seq<Num> := [Finite(0.0), Finite(0.0), Finite(0.0), Finite(0.0)]

  /** A `#` colour whose every later character is a hex digit and which has
      at least the three digits of `#RGB`. Other `#` input is left out by
      choice: a short one expands with `undefined` text, so that `'#12'`
      reads as `[17, 34, NaN, 222/255]`, and a pair with a non-hex
      character parses only its leading hex digits (`'#1g2345'` reads as
      `[1, 35, 69, 1]`). */
  predicate HexWellFormed(color: string) {
    |color| >= 4 && color[0] == '#' && forall i | 1 <= i < |color| :: IsHexDigit(color[i])
  }

  /** Rewrites `#RGB` and `#RGBA` (and any `#` colour shorter than seven
      characters) to `#RRGGBB` / `#RRGGBBAA` by doubling each digit. */
  function Expand(color: string): (e: string)
    requires HexWellFormed(color)
    ensures HexWellFormed(e) && |e| >= 7
    ensures |color| >= 7 ==> e == color
  {
    if |color| < 7 then
      "#" + [color[1], color[1], color[2], color[2], color[3], color[3]]
          + (if |color| > 4 then [color[4], color[4]] else "")
    else color
  }

  /** `s.substr(start, len)`: clipped to the end of `s`. */
  function Substr(s: string, start: nat, len: nat): (r: string)
    ensures |r| <= len
    ensures start + len <= |s| ==> r == s[start..start + len]
    ensures start <= |s| < start + len ==> r == s[start..]
    ensures |s| <= start ==> r == ""
  {
    var from := if start <= |s| then start else |s|;
    var to := if start + len <= |s| then start + len else |s|;
    s[from..to]
  }

  /** `parseInt(s, 16)` on one or two hex digits. */
  function HexByte(s: string): (v: nat)
    requires 1 <= |s| <= 2 && forall i | 0 <= i < |s| :: IsHexDigit(s[i])
    ensures v <= 255
    ensures |s| == 1 ==> v == HexValue(s[0])
    ensures |s| == 2 ==> v / 16 == HexValue(s[0]) && v % 16 == HexValue(s[1])
  {
    if |s| == 1 then HexValue(s[0]) else 16 * HexValue(s[0]) + HexValue(s[1])
  }

  /** Red, green and blue are bytes; alpha lies in [0, 1]. */
  predicate IsRGBA(c: seq<Num>) {
    && |c| == 4
    && (forall i | 0 <= i < 3 :: c[i].Finite? && IsIntegral(c[i].value) && 0.0 <= c[i].value <= 255.0)
    && c[3].Finite? && 0.0 <= c[3].value <= 1.0
  }

  /** The hex branch: byte pairs become R, G and B, and an alpha byte, if
      any, is divided by 255; without one alpha is 1. */
  function HexChannels(color: string): (r: seq<Num>)
    requires HexWellFormed(color)
    ensures IsRGBA(r)
  {
    var e := Expand(color);
    [ Finite(HexByte(Substr(e, 1, 2)) as real),
      Finite(HexByte(Substr(e, 3, 2)) as real),
      Finite(HexByte(Substr(e, 5, 2)) as real),
      if |e| > 7 then Finite(HexByte(Substr(e, 7, 2)) as real / 255.0) else Finite(1.0) ]
  }

  /** `rgb(R,G,B)` gets `", 1"` appended unless it mentions `rgba`; what is
      appended is one more number run, the alpha `1`. */
  function WithAlpha(c: string): (r: string)
    ensures IndexOf(c, "rgba") == -1 ==> Runs(r) == Runs(c) + ["1"]
    ensures IndexOf(c, "rgba") != -1 ==> r == c
  {
    if IndexOf(c, "rgba") == -1 then
      RunsSeparated(c, ", 1");
      OpaqueSuffix();
      c + ", 1"
    else c
  }

  /** The string the functional branch sees: the input itself when it
      mentions `rgb`, otherwise what the host resolves it to. */
  function Computed(color: string, resolve: Resolver): (r: Option<string>)
    ensures IndexOf(color, "rgb") != -1 ==> r == Some(color)
    ensures IndexOf(color, "rgb") == -1 ==> r == resolve(color)
  {
    if IndexOf(color, "rgb") == -1 then resolve(color) else Some(color)
  }

  /** The inputs the model covers. Hex input is well formed (see
      `HexWellFormed`); other hex input does not throw and is left out by
      choice. A functional string has at least one `[.\d]` run: otherwise
      `match` yields `null` and `.map` throws. */
  predicate ParseDefined(color: string, resolve: Resolver) {
    || color == ""
    || ToLower(color) == "transparent"
    || (color[0] == '#' && HexWellFormed(color))
    || (color[0] != '#' &&
        match Computed(color, resolve)
        case None => true
        case Some(c) => IndexOf(c, "rgb") != 0 || |Runs(WithAlpha(c))| > 0)
  }

  /** `colorStringToRGBAArray(color)`, with the named-colour lookup made by
      `resolve`. */
  function Parse(color: string, resolve: Resolver): (r: Option<seq<Num>>)
    requires ParseDefined(color, resolve)
    ensures color == "" ==> r == None
    ensures ToLower(color) == "transparent" ==> r == Some(Transparent)
    ensures color != "" && color[0] == '#' ==> r.Some? && IsRGBA(r.value)
    ensures r.Some? && ToLower(color) != "transparent" && color[0] != '#' ==>
              0 < |r.value| && Computed(color, resolve).Some? && IndexOf(Computed(color, resolve).value, "rgb") == 0
  {
    if color == "" then None
    else if ToLower(color) == "transparent" then Some(Transparent)
    else if color[0] == '#' then Some(HexChannels(color))
    else
      match Computed(color, resolve)
      case None => None
      case Some(c) =>
        if IndexOf(c, "rgb") == 0 then Some(ToNumbers(Runs(WithAlpha(c))))
        else None
  }

  /** Only a string whose first character lower-cases to `t` can read as
      `transparent`. */
  lemma TransparentStart(color: string)
    requires ToLower(color) == "transparent"
    ensures |color| == 11 && LowerChar(color[0]) == 't'
  {
    assert ToLower(color)[0] == 't';
  }

  /** Any capitalisation of `transparent` is the all-zero colour. */
  lemma TransparentAnyCase(color: string, resolve: Resolver)
    requires |color| == 11
    requires forall i | 0 <= i < 11 :: LowerChar(color[i]) == "transparent"[i]
    ensures ParseDefined(color, resolve)
    ensures Parse(color, resolve) == Some([Finite(0.0), Finite(0.0), Finite(0.0), Finite(0.0)])
  {
    assert ToLower(color) == "transparent";
  }

  /** `#RGB` parses exactly like `#RRGGBB`. */
  lemma ShortHex(r: char, g: char, b: char, resolve: Resolver)
    requires IsHexDigit(r) && IsHexDigit(g) && IsHexDigit(b)
    ensures ParseDefined("#" + [r, g, b], resolve)
    ensures ParseDefined("#" + [r, r, g, g, b, b], resolve)
    ensures Parse("#" + [r, g, b], resolve) == Parse("#" + [r, r, g, g, b, b], resolve)
  {
    var short := "#" + [r, g, b];
    var long := "#" + [r, r, g, g, b, b];
    assert ToLower(short) != "transparent" by { assert |ToLower(short)| == 4; }
    assert ToLower(long) != "transparent" by { assert |ToLower(long)| == 7; }
    ExpandShort(r, g, b);
  }

  /** `#RGBA` parses exactly like `#RRGGBBAA`. */
  lemma ShortHexAlpha(r: char, g: char, b: char, a: char, resolve: Resolver)
    requires IsHexDigit(r) && IsHexDigit(g) && IsHexDigit(b) && IsHexDigit(a)
    ensures ParseDefined("#" + [r, g, b, a], resolve)
    ensures ParseDefined("#" + [r, r, g, g, b, b, a, a], resolve)
    ensures Parse("#" + [r, g, b, a], resolve) == Parse("#" + [r, r, g, g, b, b, a, a], resolve)
  {
    var short := "#" + [r, g, b, a];
    var long := "#" + [r, r, g, g, b, b, a, a];
    assert ToLower(short) != "transparent" by { assert |ToLower(short)| == 5; }
    assert ToLower(long) != "transparent" by { assert |ToLower(long)| == 9; }
    ExpandShortAlpha(r, g, b, a);
  }

  /** Doubling the digits of `#RGB` gives `#RRGGBB`, whose channels are then
      the same. */
  lemma ExpandShort(r: char, g: char, b: char)
    requires IsHexDigit(r) && IsHexDigit(g) && IsHexDigit(b)
    ensures HexWellFormed("#" + [r, g, b]) && HexWellFormed("#" + [r, r, g, g, b, b])
    ensures HexChannels("#" + [r, g, b]) == HexChannels("#" + [r, r, g, g, b, b])
  {
    assert Expand("#" + [r, g, b]) == "#" + [r, r, g, g, b, b];
  }

  /** Doubling the digits of `#RGBA` gives `#RRGGBBAA`, whose channels are
      then the same. */
  lemma ExpandShortAlpha(r: char, g: char, b: char, a: char)
    requires IsHexDigit(r) && IsHexDigit(g) && IsHexDigit(b) && IsHexDigit(a)
    ensures HexWellFormed("#" + [r, g, b, a]) && HexWellFormed("#" + [r, r, g, g, b, b, a, a])
    ensures HexChannels("#" + [r, g, b, a]) == HexChannels("#" + [r, r, g, g, b, b, a, a])
  {
    assert Expand("#" + [r, g, b, a]) == "#" + [r, r, g, g, b, b, a, a];
  }

  /** `#RRGGBB` gives its three bytes and alpha exactly 1; `#RRGGBBAA` gives
      the fourth byte over 255. */
  lemma HexBytes(color: string, resolve: Resolver)
    requires HexWellFormed(color) && (|color| == 7 || |color| == 9)
    ensures ParseDefined(color, resolve)
    ensures Parse(color, resolve) == Some(
      [ Finite((16 * HexValue(color[1]) + HexValue(color[2])) as real),
        Finite((16 * HexValue(color[3]) + HexValue(color[4])) as real),
        Finite((16 * HexValue(color[5]) + HexValue(color[6])) as real),
        if |color| == 9 then Finite((16 * HexValue(color[7]) + HexValue(color[8])) as real / 255.0)
        else Finite(1.0) ])
  {
    assert ToLower(color) != "transparent" by {
      assert ToLower(color)[0] == '#';
    }
    assert Substr(color, 1, 2) == color[1..3];
    assert Substr(color, 3, 2) == color[3..5];
    assert Substr(color, 5, 2) == color[5..7];
    if |color| == 9 {
      assert Substr(color, 7, 2) == color[7..9];
    }
  }

  /** `'#FFF'` is opaque white. */
  lemma WhiteShortHex(resolve: Resolver)
    ensures ParseDefined("#FFF", resolve)
    ensures Parse("#FFF", resolve) == Some([Finite(255.0), Finite(255.0), Finite(255.0), Finite(1.0)])
  {
    assert "#FFF" == "#" + ['F', 'F', 'F'];
    assert "#FFFFFF" == "#" + ['F', 'F', 'F', 'F', 'F', 'F'];
    ShortHex('F', 'F', 'F', resolve);
    assert HexWellFormed("#FFFFFF");
    HexBytes("#FFFFFF", resolve);
    assert HexValue('F') == 15;
  }

  /** The appended `", 1"` contributes exactly one run, the alpha 1. */
  lemma OpaqueSuffix()
    ensures Runs(", 1") == ["1"]
    ensures ToNumber("1") == Finite(1.0)
  {
    assert ", 1"[1..] == " 1" && " 1"[1..] == "1";
    assert Span("1", IsNumChar) == 1;
    assert "1"[..1] == "1" && "1"[1..] == "";
    assert Runs("1") == ["1"];
  }

  /** A string that starts with `rgb` is not `transparent` in any case. */
  lemma RgbIsNotTransparent(color: string)
    requires IndexOf(color, "rgb") == 0
    ensures |color| >= 3 && color[0] == 'r'
    ensures ToLower(color) != "transparent"
  {
    assert OccursAt(color, "rgb", 0);
    assert color[0] == color[0..3][0] == 'r';
    if ToLower(color) == "transparent" {
      TransparentStart(color);
    }
  }

  /** Appending `", 1"` adds the single run `1` after the runs of `c`. */
  lemma AlphaAppended(c: string)
    requires IndexOf(c, "rgba") == -1
    ensures ToNumbers(Runs(WithAlpha(c))) == ToNumbers(Runs(c)) + [Finite(1.0)]
  {
    OpaqueSuffix();
    var ns := ToNumbers(Runs(c) + ["1"]);
    assert ns == ToNumbers(Runs(c)) + [Finite(1.0)];
  }

  /** An `rgb(...)` string that does not mention `rgba` yields its numbers
      in source order followed by an alpha of 1. */
  lemma RgbGetsOpaqueAlpha(color: string, resolve: Resolver)
    requires IndexOf(color, "rgb") == 0 && IndexOf(color, "rgba") == -1
    ensures ParseDefined(color, resolve)
    ensures Parse(color, resolve) == Some(ToNumbers(Runs(color)) + [Finite(1.0)])
  {
    RgbIsNotTransparent(color);
    assert Computed(color, resolve) == Some(color);
    AlphaAppended(color);
  }

  /** An `rgba(...)` string is read as it stands: its runs, with no alpha
      appended. */
  lemma RgbaKeepsRuns(color: string, resolve: Resolver)
    requires IndexOf(color, "rgb") == 0 && IndexOf(color, "rgba") != -1
    requires |Runs(color)| > 0
    ensures ParseDefined(color, resolve)
    ensures Parse(color, resolve) == Some(ToNumbers(Runs(color)))
  {
    RgbIsNotTransparent(color);
    assert Computed(color, resolve) == Some(color);
  }

  /** Lower-casing keeps an occurrence of the lower-case word `rgb`. */
  lemma LowerKeepsRgb(color: string, j: int)
    requires OccursAt(color, "rgb", j)
    ensures OccursAt(ToLower(color), "rgb", j)
  {
    var word := color[j..j + 3];
    assert word == "rgb";
    assert color[j] == word[0] == 'r';
    assert color[j + 1] == word[1] == 'g';
    assert color[j + 2] == word[2] == 'b';
    var lower := ToLower(color);
    assert lower[j] == 'r' && lower[j + 1] == 'g' && lower[j + 2] == 'b';
    assert lower[j..j + 3] == [lower[j], lower[j + 1], lower[j + 2]];
  }

  /** The word `transparent` does not contain `rgb`. */
  lemma TransparentHasNoRgb(j: int)
    ensures !OccursAt("transparent", "rgb", j)
  {
    var t := "transparent";
    if 0 <= j && j + 3 <= |t| {
      assert t[j..j + 3][0] == t[j] && t[j..j + 3][1] == t[j + 1];
      assert t[j] != 'r' || t[j + 1] != 'g';
    }
  }

  /** A string that mentions `rgb` anywhere but at its start is no colour. */
  lemma RgbNotAtStart(color: string, resolve: Resolver)
    requires color != "" && color[0] != '#'
    requires IndexOf(color, "rgb") > 0
    ensures ParseDefined(color, resolve)
    ensures Parse(color, resolve) == None
  {
    var j := IndexOf(color, "rgb");
    assert ToLower(color) != "transparent" by {
      LowerKeepsRgb(color, j);
      TransparentHasNoRgb(j);
    }
    assert Computed(color, resolve) == Some(color);
  }

  /** `rgb(R,G,B)` written with the decimal strings `x`, `y` and `z`. */
  function RgbString(x: string, y: string, z: string): string {
    "rgb(" + x + "," + y + "," + z + ")"
  }

  /** The three channel strings are the runs of an `rgb(...)` string. */
  lemma RgbStringRuns(x: string, y: string, z: string)
    requires |x| > 0 && |y| > 0 && |z| > 0 && AllDigits(x) && AllDigits(y) && AllDigits(z)
    ensures Runs(RgbString(x, y, z)) == [x, y, z]
  {
    var head := "rgb(" + x;
    var mid := "," + y;
    var tail := "," + z;
    assert RgbString(x, y, z) == head + mid + tail + ")";
    RunsSeparated(head + mid + tail, ")");
    RunsSeparated(head + mid, tail);
    RunsSeparated(head, mid);
    RunsSkip("rgb(", x);
    RunsSkip(",", y);
    RunsSkip(",", z);
    RunsSkip(")", "");
    assert ")" + "" == ")";
    RunsWhole(x);
    RunsWhole(y);
    RunsWhole(z);
  }

  /** An `rgb(...)` string starts with `rgb` and holds no `a`. */
  lemma RgbStringIndices(x: string, y: string, z: string)
    requires AllDigits(x) && AllDigits(y) && AllDigits(z)
    ensures IndexOf(RgbString(x, y, z), "rgb") == 0
    ensures IndexOf(RgbString(x, y, z), "rgba") == -1
  {
    var c := RgbString(x, y, z);
    assert OccursAt(c, "rgb", 0) by { assert c[0..3] == "rgb"; }
    FreeOfDigits(x, 'a');
    FreeOfDigits(y, 'a');
    FreeOfDigits(z, 'a');
    FreeOfConcat("rgb(" + x, ",", 'a');
    FreeOfConcat("rgb(", x, 'a');
    FreeOfConcat("rgb(" + x + ",", y, 'a');
    FreeOfConcat("rgb(" + x + "," + y, ",", 'a');
    FreeOfConcat("rgb(" + x + "," + y + ",", z, 'a');
    FreeOfConcat("rgb(" + x + "," + y + "," + z, ")", 'a');
    forall j | 0 <= j <= |c| ensures !OccursAt(c, "rgba", j) {
      if j + 4 <= |c| {
        assert c[j..j + 4][3] == c[j + 3];
      }
    }
  }

  /** `s` does not contain the character `ch`. */
  predicate FreeOf(s: string, ch: char) {
    forall i | 0 <= i < |s| :: s[i] != ch
  }

  /** A concatenation is free of what both parts are free of. */
  lemma FreeOfConcat(a: string, b: string, ch: char)
    requires FreeOf(a, ch) && FreeOf(b, ch)
    ensures FreeOf(a + b, ch)
  {
  }

  /** A digit string holds no character other than digits. */
  lemma FreeOfDigits(w: string, ch: char)
    requires AllDigits(w) && !IsDigit(ch)
    ensures FreeOf(w, ch)
  {
  }

  /** `rgb(R,G,B)` with decimal channels is those three integers, fully
      opaque. */
  lemma RgbTriple(x: string, y: string, z: string, resolve: Resolver)
    requires |x| > 0 && |y| > 0 && |z| > 0 && AllDigits(x) && AllDigits(y) && AllDigits(z)
    ensures ParseDefined(RgbString(x, y, z), resolve)
    ensures Parse(RgbString(x, y, z), resolve) ==
              Some([Finite(Decimal(x) as real), Finite(Decimal(y) as real), Finite(Decimal(z) as real), Finite(1.0)])
  {
    var c := RgbString(x, y, z);
    RgbStringIndices(x, y, z);
    assert c[0] == 'r' by { assert OccursAt(c, "rgb", 0); }
    RgbGetsOpaqueAlpha(c, resolve);
    RgbStringRuns(x, y, z);
    DecimalChannels(x, y, z);
  }

  /** Each decimal channel string reads as its value. */
  lemma DecimalChannels(x: string, y: string, z: string)
    requires AllDigits(x) && AllDigits(y) && AllDigits(z)
    ensures ToNumbers([x, y, z]) + [Finite(1.0)] ==
              [Finite(Decimal(x) as real), Finite(Decimal(y) as real), Finite(Decimal(z) as real), Finite(1.0)]
  {
    var ns := ToNumbers([x, y, z]);
    assert ns[0] == Finite(Decimal(x) as real);
    assert ns[1] == Finite(Decimal(y) as real);
    assert ns[2] == Finite(Decimal(z) as real);
  }

  /** `rgba(R,G,B,A)` written with the decimal strings `x`, `y`, `z` and the
      alpha string `a`. */
  function RgbaString(x: string, y: string, z: string, a: string): string {
    "rgba(" + x + "," + y + "," + z + "," + a + ")"
  }

  /** The four channel strings are the runs of an `rgba(...)` string. */
  lemma RgbaStringRuns(x: string, y: string, z: string, a: string)
    requires |x| > 0 && |y| > 0 && |z| > 0 && AllDigits(x) && AllDigits(y) && AllDigits(z)
    requires |a| > 0 && AllNum(a)
    ensures Runs(RgbaString(x, y, z, a)) == [x, y, z, a]
  {
    var s1 := "rgba(" + x;
    var s2 := s1 + ("," + y);
    var s3 := s2 + ("," + z);
    var s4 := s3 + ("," + a);
    assert RgbaString(x, y, z, a) == s4 + ")";
    LoneRun("rgba(", x);
    LoneRun(",", y);
    LoneRun(",", z);
    LoneRun(",", a);
    RunsSeparated(s1, "," + y);
    RunsSeparated(s2, "," + z);
    RunsSeparated(s3, "," + a);
    RunsSeparated(s4, ")");
    RunsSkip(")", "");
    assert ")" + "" == ")";
  }

  /** Non-number characters followed by one run give just that run. */
  lemma LoneRun(lead: string, w: string)
    requires forall i | 0 <= i < |lead| :: !IsNumChar(lead[i])
    requires |w| > 0 && AllNum(w)
    ensures Runs(lead + w) == [w]
  {
    RunsSkip(lead, w);
    RunsWhole(w);
  }

  /** An `rgba(...)` string starts with `rgb` and mentions `rgba`. */
  lemma RgbaStringIndices(x: string, y: string, z: string, a: string)
    ensures IndexOf(RgbaString(x, y, z, a), "rgb") == 0
    ensures IndexOf(RgbaString(x, y, z, a), "rgba") == 0
  {
    var c := RgbaString(x, y, z, a);
    var word := c[0..4];
    assert word == "rgba";
    assert OccursAt(c, "rgba", 0);
    assert c[0..3] == word[0..3] == "rgb";
    assert OccursAt(c, "rgb", 0);
  }

  /** `rgba(x,y,z,a)` is read as its four runs. */
  lemma RgbaQuad(x: string, y: string, z: string, a: string, resolve: Resolver)
    requires |x| > 0 && |y| > 0 && |z| > 0 && AllDigits(x) && AllDigits(y) && AllDigits(z)
    requires |a| > 0 && AllNum(a)
    ensures ParseDefined(RgbaString(x, y, z, a), resolve)
    ensures Parse(RgbaString(x, y, z, a), resolve) == Some(ToNumbers([x, y, z, a]))
  {
    RgbaStringRuns(x, y, z, a);
    RgbaStringIndices(x, y, z, a);
    RgbaKeepsRuns(RgbaString(x, y, z, a), resolve);
  }

  /** `rgba(x,y,z,p.q)`, the alpha written with a decimal point, is the
      three integers and the alpha `p` plus the fraction `q`, as given. */
  lemma RgbaFractionalAlpha(x: string, y: string, z: string, p: string, q: string, resolve: Resolver)
    requires |x| > 0 && |y| > 0 && |z| > 0 && AllDigits(x) && AllDigits(y) && AllDigits(z)
    requires AllDigits(p) && AllDigits(q) && |p| + |q| > 0
    ensures ParseDefined(RgbaString(x, y, z, p + "." + q), resolve)
    ensures Parse(RgbaString(x, y, z, p + "." + q), resolve) ==
              Some([Finite(Decimal(x) as real), Finite(Decimal(y) as real), Finite(Decimal(z) as real),
                    Finite(Decimal(p) as real + Fraction(q))])
  {
    ToNumberPoint(p, q);
    RgbaQuad(x, y, z, p + "." + q, resolve);
    QuadNumbers(x, y, z, p + "." + q);
  }

  /** Three digit strings and a run read as their values. */
  lemma QuadNumbers(x: string, y: string, z: string, a: string)
    requires AllDigits(x) && AllDigits(y) && AllDigits(z) && AllNum(a)
    ensures ToNumbers([x, y, z, a]) ==
              [Finite(Decimal(x) as real), Finite(Decimal(y) as real), Finite(Decimal(z) as real), ToNumber(a)]
  {
    var ns := ToNumbers([x, y, z, a]);
    assert ns[0] == Finite(Decimal(x) as real);
    assert ns[1] == Finite(Decimal(y) as real);
    assert ns[2] == Finite(Decimal(z) as real);
  }
}

=== FILE: mixing.dfy ===
/** Channel interpolation (`mixTwoRGB`, `mixTwoRGBA`, `mixTwoColors`) and
    `opacify` from src/utils/index.js. Results are channel sequences; the
    `rgb(...)`/`rgba(...)` text the source builds from them is not modelled. */
module Mixing {
  import opened Wrappers
  import opened Numbers
  import opened Text
  import opened Colour

  /** `a + (b - a) * range`: NaN unless both channels are finite numbers.
      The result is the affine combination of the two endpoints. */
  function Blend(a: Num, b: Num, range: real): (r: Num)
    ensures r.Finite? <==> a.Finite? && b.Finite?
    ensures r.Finite? ==> r.value == a.value * (1.0 - range) + b.value * range
  {
    if a.Finite? && b.Finite? then Finite(a.value + (b.value - a.value) * range) else NaN
  }

  /** `r` is the blend of `a` towards `b`, kept exact (the alpha channel). */
  predicate ExactBlend(r: Num, a: Num, b: Num, range: real) {
    if a.Finite? && b.Finite? then r == Finite(a.value * (1.0 - range) + b.value * range)
    else r == NaN
  }

  /** `r` is `Math.round` of the blend of `a` towards `b`: the integer
      nearest to it, halves rounded up; NaN when either is not a number. */
  predicate RoundedBlend(r: Num, a: Num, b: Num, range: real) {
    if a.Finite? && b.Finite? then
      var x := a.value * (1.0 - range) + b.value * range;
      r.Finite? && IsIntegral(r.value) && x - 0.5 < r.value <= x + 0.5
    else r == NaN
  }

  /** One channel of a mix: rounded by `Math.round`, or left exact. */
  function MixChannel(a: Num, b: Num, range: real, rounded: bool): (r: Num)
    ensures rounded ==> RoundedBlend(r, a, b, range)
    ensures !rounded ==> ExactBlend(r, a, b, range)
  {
    if rounded then RoundNum(Blend(a, b, range)) else Blend(a, b, range)
  }

  /** `mixTwoRGB(colorA, colorB, range)`: three rounded channels; channels
      missing from a short array read as `undefined` and give NaN. */
  function MixTwoRGB(a: seq<Num>, b: seq<Num>, range: real): (r: seq<Num>)
    ensures |r| == 3
    ensures forall i | 0 <= i < 3 :: RoundedBlend(r[i], At(a, i), At(b, i), range)
  {
    seq(3, i requires 0 <= i < 3 => MixChannel(At(a, i), At(b, i), range, true))
  }

  /** `mixTwoRGBA(colorA, colorB, range)`: channels 0-2 rounded, alpha
      (index 3) left as the exact blend. */
  function MixTwoRGBA(a: seq<Num>, b: seq<Num>, range: real): (r: seq<Num>)
    ensures |r| == 4
    ensures forall i | 0 <= i < 3 :: RoundedBlend(r[i], At(a, i), At(b, i), range)
    ensures ExactBlend(r[3], At(a, 3), At(b, 3), range)
  {
    seq(4, i requires 0 <= i < 4 => MixChannel(At(a, i), At(b, i), range, i != 3))
  }

  /** The first `n` channels of `c` exist and are finite; the first `m` of
      them (colour, not alpha) are whole numbers. */
  predicate Channels(c: seq<Num>, n: nat, m: nat) {
    |c| >= n && (forall i | 0 <= i < n :: c[i].Finite?) && (forall i | 0 <= i < m && i < n :: IsIntegral(c[i].value))
  }

  /** Both mixers agree on the colour channels. */
  lemma MixersAgree(a: seq<Num>, b: seq<Num>, range: real)
    ensures MixTwoRGB(a, b, range) == MixTwoRGBA(a, b, range)[..3]
  {
  }

  /** A rounded blend with range 0 is the first endpoint when it is whole. */
  lemma RoundedBlendAtZero(r: Num, a: Num, b: Num)
    requires a.Finite? && b.Finite? && IsIntegral(a.value)
    requires RoundedBlend(r, a, b, 0.0)
    ensures r == a
  {
    assert a.value * (1.0 - 0.0) + b.value * 0.0 == a.value;
    assert r.value.Floor == a.value.Floor;
  }

  /** A rounded blend with range 1 is the second endpoint when it is whole. */
  lemma RoundedBlendAtOne(r: Num, a: Num, b: Num)
    requires a.Finite? && b.Finite? && IsIntegral(b.value)
    requires RoundedBlend(r, a, b, 1.0)
    ensures r == b
  {
    assert a.value * (1.0 - 1.0) + b.value * 1.0 == b.value;
    assert r.value.Floor == b.value.Floor;
  }

  /** Range 0 returns colour A, range 1 colour B, for finite channels
      whose colour components are whole numbers. */
  lemma MixEndpoints(a: seq<Num>, b: seq<Num>)
    requires Channels(a, 4, 3) && Channels(b, 4, 3)
    ensures MixTwoRGBA(a, b, 0.0) == a[..4]
    ensures MixTwoRGBA(a, b, 1.0) == b[..4]
    ensures MixTwoRGB(a, b, 0.0) == a[..3]
    ensures MixTwoRGB(a, b, 1.0) == b[..3]
  {
    var r0 := MixTwoRGBA(a, b, 0.0);
    var r1 := MixTwoRGBA(a, b, 1.0);
    forall i | 0 <= i < 3 ensures r0[i] == a[i] && r1[i] == b[i] {
      RoundedBlendAtZero(r0[i], a[i], b[i]);
      RoundedBlendAtOne(r1[i], a[i], b[i]);
    }
    assert r0[3] == a[3] && r1[3] == b[3];
    assert r0 == a[..4];
    assert r1 == b[..4];
    MixersAgree(a, b, 0.0);
    MixersAgree(a, b, 1.0);
  }

  /** Mixing a colour with itself returns it, whatever the range. */
  lemma MixSelf(c: seq<Num>, range: real)
    requires Channels(c, 4, 3)
    ensures MixTwoRGBA(c, c, range) == c[..4]
    ensures MixTwoRGB(c, c, range) == c[..3]
  {
    var r := MixTwoRGBA(c, c, range);
    forall i | 0 <= i < 4 ensures r[i] == c[i] {
      assert c[i].value * (1.0 - range) + c[i].value * range == c[i].value;
      if i < 3 {
        assert r[i].value.Floor == c[i].value.Floor;
      }
    }
    MixersAgree(c, c, range);
  }

  /** `mixTwoRGB` reads only three channels: at range 0 it returns colour
      A, at range 1 colour B, for any colours with three whole channels. */
  lemma MixRgbEndpoints(a: seq<Num>, b: seq<Num>)
    requires Channels(a, 3, 3) && Channels(b, 3, 3)
    ensures MixTwoRGB(a, b, 0.0) == a[..3]
    ensures MixTwoRGB(a, b, 1.0) == b[..3]
  {
    var r0 := MixTwoRGB(a, b, 0.0);
    var r1 := MixTwoRGB(a, b, 1.0);
    forall i | 0 <= i < 3 ensures r0[i] == a[i] && r1[i] == b[i] {
      RoundedBlendAtZero(r0[i], a[i], b[i]);
      RoundedBlendAtOne(r1[i], a[i], b[i]);
    }
  }

  /** `mixTwoRGB` of a three-channel colour with itself returns it, whatever
      the range. */
  lemma MixRgbSelf(c: seq<Num>, range: real)
    requires Channels(c, 3, 3)
    ensures MixTwoRGB(c, c, range) == c[..3]
  {
    var r := MixTwoRGB(c, c, range);
    forall i | 0 <= i < 3 ensures r[i] == c[i] {
      assert c[i].value * (1.0 - range) + c[i].value * range == c[i].value;
      assert r[i].value.Floor == c[i].value.Floor;
    }
  }

  /** Swapping the colours and mirroring the range gives the same mix. */
  lemma MixSymmetric(a: seq<Num>, b: seq<Num>, range: real)
    ensures MixTwoRGBA(a, b, range) == MixTwoRGBA(b, a, 1.0 - range)
  {
    var r := MixTwoRGBA(a, b, range);
    var s := MixTwoRGBA(b, a, 1.0 - range);
    forall i | 0 <= i < 4 ensures r[i] == s[i] {
      var x, y := At(a, i), At(b, i);
      if x.Finite? && y.Finite? {
        assert x.value * (1.0 - range) + y.value * range
            == y.value * (1.0 - (1.0 - range)) + x.value * (1.0 - range);
        if i < 3 {
          assert r[i].value.Floor == s[i].value.Floor;
        }
      }
    }
  }

  predicate Between(x: real, a: real, b: real) {
    (a <= x <= b) || (b <= x <= a)
  }

  lemma ProductNonNegative(x: real, y: real)
    requires 0.0 <= x && 0.0 <= y
    ensures 0.0 <= x * y
  {
  }

  /** A blend with range in [0, 1] lies between its endpoints. */
  lemma BlendBetween(a: real, b: real, range: real)
    requires 0.0 <= range <= 1.0
    ensures Between(a * (1.0 - range) + b * range, a, b)
  {
    var x := a * (1.0 - range) + b * range;
    var d := b - a;
    assert x - a == d * range;
    assert d - d * range == d * (1.0 - range);
    var rest := 1.0 - range;
    if a <= b {
      ProductNonNegative(d, range);
      ProductNonNegative(d, rest);
    } else {
      ProductNonNegative(-d, range);
      ProductNonNegative(-d, rest);
    }
  }

  /** With range in [0, 1] and whole endpoints, rounding cannot leave the
      interval between the two channels. */
  lemma RoundedBlendBetween(r: Num, a: Num, b: Num, range: real)
    requires 0.0 <= range <= 1.0
    requires a.Finite? && b.Finite? && IsIntegral(a.value) && IsIntegral(b.value)
    requires RoundedBlend(r, a, b, range)
    ensures Between(r.value, a.value, b.value)
  {
    var x := a.value * (1.0 - range) + b.value * range;
    BlendBetween(a.value, b.value, range);
    var lo, hi := a.value.Floor, b.value.Floor;
    if hi < lo {
      lo, hi := hi, lo;
    }
    assert lo as real <= x <= hi as real;
    var n := r.value.Floor;
    assert n as real == r.value;
    assert lo <= n <= hi;
  }

  /** Mixing two colours of the parser's hex form with range in [0, 1]
      stays in that form: bytes for R, G and B, alpha in [0, 1]. */
  lemma MixStaysInGamut(a: seq<Num>, b: seq<Num>, range: real)
    requires IsRGBA(a) && IsRGBA(b) && 0.0 <= range <= 1.0
    ensures IsRGBA(MixTwoRGBA(a, b, range))
  {
    var r := MixTwoRGBA(a, b, range);
    forall i | 0 <= i < 3 ensures 0.0 <= r[i].value <= 255.0 {
      RoundedBlendBetween(r[i], a[i], b[i], range);
    }
    ExactBlendInUnit(r[3], a[3], b[3], range);
  }

  /** The exact blend of two alphas in [0, 1], with range in [0, 1], is an
      alpha in [0, 1]. */
  lemma ExactBlendInUnit(r: Num, a: Num, b: Num, range: real)
    requires ExactBlend(r, a, b, range) && 0.0 <= range <= 1.0
    requires a.Finite? && 0.0 <= a.value <= 1.0
    requires b.Finite? && 0.0 <= b.value <= 1.0
    ensures r.Finite? && 0.0 <= r.value <= 1.0
  {
    BlendBetween(a.value, b.value, range);
  }

  /** Black and white mixed half-way give the mid grey 128 (127.5 rounds up). */
  lemma MixExample()
    ensures MixTwoRGBA([Finite(0.0), Finite(0.0), Finite(0.0), Finite(1.0)],
                       [Finite(255.0), Finite(255.0), Finite(255.0), Finite(1.0)], 0.5)
         == [Finite(128.0), Finite(128.0), Finite(128.0), Finite(1.0)]
  {
    var r := MixTwoRGBA([Finite(0.0), Finite(0.0), Finite(0.0), Finite(1.0)],
                        [Finite(255.0), Finite(255.0), Finite(255.0), Finite(1.0)], 0.5);
    forall i | 0 <= i < 3 ensures r[i] == Finite(128.0) {
      assert r[i].value.Floor == 128;
    }
  }

  /** The parsed channels of a colour string. */
  function Parsed(color: string, resolve: Resolver): seq<Num>
    requires ParseDefined(color, resolve) && Parse(color, resolve).Some?
  {
    Parse(color, resolve).value
  }

  /** `mixTwoColors(colorA, colorB, range)`: both strings are parsed, then
      mixed channel by channel. Indexing a failed parse throws in the
      source, so both parses must succeed. */
  function MixTwoColors(colorA: string, colorB: string, range: real, resolve: Resolver): (r: seq<Num>)
    requires ParseDefined(colorA, resolve) && Parse(colorA, resolve).Some?
    requires ParseDefined(colorB, resolve) && Parse(colorB, resolve).Some?
    ensures |r| == 4
    ensures forall i | 0 <= i < 3 ::
      RoundedBlend(r[i], At(Parsed(colorA, resolve), i), At(Parsed(colorB, resolve), i), range)
    ensures ExactBlend(r[3], At(Parsed(colorA, resolve), 3), At(Parsed(colorB, resolve), 3), range)
  {
    MixTwoRGBA(Parsed(colorA, resolve), Parsed(colorB, resolve), range)
  }

  /** Two hex colours mix, with range in [0, 1], into a colour of the same
      form, and a hex colour mixed with itself is its parse. */
  lemma MixTwoHexColors(colorA: string, colorB: string, range: real, resolve: Resolver)
    requires HexWellFormed(colorA) && HexWellFormed(colorB)
    ensures ParseDefined(colorA, resolve) && Parse(colorA, resolve).Some?
    ensures ParseDefined(colorB, resolve) && Parse(colorB, resolve).Some?
    ensures 0.0 <= range <= 1.0 ==> IsRGBA(MixTwoColors(colorA, colorB, range, resolve))
    ensures MixTwoColors(colorA, colorA, range, resolve) == Parsed(colorA, resolve)
  {
    var a := Parsed(colorA, resolve);
    var b := Parsed(colorB, resolve);
    if 0.0 <= range <= 1.0 {
      MixStaysInGamut(a, b, range);
    }
    MixSelf(a, range);
    assert a[..4] == a;
  }

  /** `opacify(color, opacity)`: the parsed array with index 3 overwritten.
      A shorter array grows to four slots, the gap left `undefined`. */
  function Opacify(color: string, opacity: real, resolve: Resolver): (r: seq<Num>)
    requires ParseDefined(color, resolve) && Parse(color, resolve).Some?
    ensures |r| == if |Parsed(color, resolve)| > 4 then |Parsed(color, resolve)| else 4
    ensures r[3] == Finite(opacity)
    ensures forall i | 0 <= i < |r| && i != 3 :: r[i] == At(Parsed(color, resolve), i)
  {
    var arr := Parsed(color, resolve);
    if |arr| > 3 then arr[3 := Finite(opacity)]
    else arr + seq(3 - |arr|, _ => Undefined) + [Finite(opacity)]
  }

  /** A hex colour keeps its red, green and blue and takes `opacity` as its
      alpha, unchecked: any real is accepted. */
  lemma OpacifyHex(color: string, opacity: real, resolve: Resolver)
    requires HexWellFormed(color)
    ensures ParseDefined(color, resolve) && Parse(color, resolve).Some?
    ensures Opacify(color, opacity, resolve) == Parsed(color, resolve)[..3] + [Finite(opacity)]
  {
    var r := Opacify(color, opacity, resolve);
    assert r == Parsed(color, resolve)[..3] + [Finite(opacity)];
  }

  /** A parse of exactly four channels keeps the first three. */
  lemma OpacifyFour(color: string, c: seq<Num>, opacity: real, resolve: Resolver)
    requires ParseDefined(color, resolve) && Parse(color, resolve) == Some(c) && |c| == 4
    ensures Opacify(color, opacity, resolve) == [c[0], c[1], c[2], Finite(opacity)]
  {
  }

  /** `opacify` on `rgb(R,G,B)` keeps the three channels and replaces the
      alpha 1 by `opacity`. */
  lemma OpacifyRgb(x: string, y: string, z: string, opacity: real, resolve: Resolver)
    requires |x| > 0 && |y| > 0 && |z| > 0 && AllDigits(x) && AllDigits(y) && AllDigits(z)
    ensures ParseDefined(RgbString(x, y, z), resolve) && Parse(RgbString(x, y, z), resolve).Some?
    ensures Opacify(RgbString(x, y, z), opacity, resolve) ==
              [Finite(Decimal(x) as real), Finite(Decimal(y) as real), Finite(Decimal(z) as real), Finite(opacity)]
  {
    RgbTriple(x, y, z, resolve);
    OpacifyFour(RgbString(x, y, z), [Finite(Decimal(x) as real), Finite(Decimal(y) as real), Finite(Decimal(z) as real), Finite(1.0)], opacity, resolve);
  }
}

=== FILE: numbers.dfy ===
/** JavaScript numbers as the colour and scale helpers see them, over the
    mathematical reals (IEEE-754 rounding is not modelled). */
module Numbers {

  /** A value found in a channel array: a finite number, NaN (what `+"1.2.3"`
      or arithmetic on a missing channel yields), or `undefined` (an array
      slot that was never written). */
  datatype Num = Finite(value: real) | NaN | Undefined

  /** The element `c[i]` of a JavaScript array: `undefined` past its end. */
  function At(c: seq<Num>, i: nat): Num {
    if i < |c| then c[i] else Undefined
  }

  predicate IsIntegral(x: real) {
    x == x.Floor as real
  }

  /** `Math.round`: the integer nearest to `x`, halves rounded up. */
  function Round(x: real): (r: int)
    ensures x - 0.5 < r as real <= x + 0.5
  {
    (x + 0.5).Floor
  }

  /** An integer is its own rounding. */
  lemma RoundOfInteger(n: int)
    ensures Round(n as real) == n
  {
  }

  /** `Math.round` applied to a channel: NaN stays NaN, as does `undefined`. */
  function RoundNum(n: Num): (r: Num)
    ensures r.Finite? <==> n.Finite?
    ensures !n.Finite? ==> r == NaN
    ensures r.Finite? ==> IsIntegral(r.value) && n.value - 0.5 < r.value <= n.value + 0.5
  {
    if n.Finite? then Finite(Round(n.value) as real) else NaN
  }

  /** `x` raised to a natural power. */
  function PowNat(x: real, k: nat): (r: real)
    ensures x != 0.0 ==> r != 0.0
    ensures x > 0.0 ==> r > 0.0
  {
    if k == 0 then 1.0 else x * PowNat(x, k - 1)
  }

  /** `Math.pow(x, k)` for an integer exponent; a zero base with a negative
      exponent (Infinity in JavaScript) is excluded. */
  function Pow(x: real, k: int): (r: real)
    requires x != 0.0 || k >= 0
    ensures k >= 0 ==> r == PowNat(x, k)
    ensures k < 0 ==> r * PowNat(x, -k) == 1.0
    ensures x != 0.0 ==> r != 0.0
    ensures x > 0.0 ==> r > 0.0
  {
    if k >= 0 then PowNat(x, k) else 1.0 / PowNat(x, -k)
  }

  /** Every step of the integer-exponent power multiplies by the base, on
      both sides of zero. */
  lemma {:induction false} PowStep(x: real, k: int)
    requires x != 0.0
    ensures Pow(x, k + 1) == x * Pow(x, k)
  {
    if k < 0 {
      var m := -(k + 1);
      assert PowNat(x, m + 1) == x * PowNat(x, m);
      if m == 0 {
        assert Pow(x, k) == 1.0 / x;
      } else {
        assert Pow(x, k) == 1.0 / (x * PowNat(x, m));
      }
    }
  }

  /** A ratio of at least 1 raised to a higher power is no smaller. */
  lemma PowGrows(x: real, k: int)
    requires x >= 1.0
    ensures Pow(x, k) <= Pow(x, k + 1)
  {
    var p := Pow(x, k);
    PowStep(x, k);
    assert p > 0.0;
    ScaleUp(p, 1.0, x);
    assert p * 1.0 == p && p * x == x * p;
  }

  /** Multiplying by a non-negative factor keeps the order. */
  lemma ScaleUp(c: real, x: real, y: real)
    requires 0.0 <= c && x <= y
    ensures c * x <= c * y
  {
    assert c * y - c * x == c * (y - x);
  }
}

=== FILE: objects.dfy ===
/** The object helper `merge` (src/utils/index.js). Objects are maps from
    property names to values; a property holding `undefined` is `None`, and
    reading a property an object lacks also gives `undefined`. */
module Objects {
  import opened Wrappers

  /** `obj[e]` read as JavaScript reads it. */
  function Get<V>(m: map<string, Option<V>>, e: string): Option<V> {
    if e in m then m[e] else None
  }

  /** The object after the properties `done` of `original` have been
      visited. */
  function MergedOn<V>(obj: map<string, Option<V>>, original: map<string, Option<V>>, done: set<string>): map<string, Option<V>>
    requires done <= original.Keys
  {
    map e | e in obj.Keys + done ::
      if e in done && Get(obj, e).None? then original[e] else obj[e]
  }

  /** Before the loop nothing has changed. */
  lemma MergedOnNone<V>(obj: map<string, Option<V>>, original: map<string, Option<V>>)
    ensures MergedOn(obj, original, {}) == obj
  {
    assert MergedOn(obj, original, {}).Keys == obj.Keys;
  }

  /** One iteration of the loop of `merge`: property `e` of `original` is
      copied when it is `undefined` in `r`. */
  function Visit<V>(r: map<string, Option<V>>, original: map<string, Option<V>>, e: string): map<string, Option<V>>
    requires e in original
  {
    if Get(r, e).None? then r[e := original[e]] else r
  }

  /** Visiting one more property `e` updates only `e`, and only when it is
      still `undefined`. */
  lemma {:induction false} MergedOnStep<V>(obj: map<string, Option<V>>, original: map<string, Option<V>>, done: set<string>, e: string)
    requires done <= original.Keys && e in original && e !in done
    ensures MergedOn(obj, original, done + {e}) == Visit(MergedOn(obj, original, done), original, e)
  {
    var before := MergedOn(obj, original, done);
    assert Get(before, e) == Get(obj, e);
    var after := MergedOn(obj, original, done + {e});
    var expected := Visit(before, original, e);
    assert after.Keys == expected.Keys;
    forall x | x in after ensures after[x] == expected[x] {
    }
  }

  /** The object `merge(obj, original)` leaves behind, property by
      property: a property of `original` that is `undefined` in `obj` takes
      the value from `original`; every other property keeps its value in
      `obj`. */
  function Merged<V>(obj: map<string, Option<V>>, original: map<string, Option<V>>): (r: map<string, Option<V>>)
    ensures r.Keys == obj.Keys + original.Keys
    ensures forall e | e in obj && obj[e].Some? :: r[e] == obj[e]
    ensures forall e | e in original && Get(obj, e).None? :: r[e] == original[e]
    ensures forall e | e in obj && e !in original :: r[e] == obj[e]
  {
    MergedOn(obj, original, original.Keys)
  }

  /** `merge(obj, original)`: visits the properties of `original` and fills
      those that are `undefined` in `obj`; a defined property of `obj` is
      never overwritten. */
  method Merge<V>(obj: map<string, Option<V>>, original: map<string, Option<V>>)
    returns (r: map<string, Option<V>>)
    ensures r.Keys == obj.Keys + original.Keys
    ensures forall e | e in obj && obj[e].Some? :: r[e] == obj[e]
    ensures forall e | e in original && Get(obj, e).None? :: r[e] == original[e]
    ensures forall e | e in obj && e !in original :: r[e] == obj[e]
  {
    r := obj;
    var todo := original.Keys;
    ghost var done: set<string> := {};
    MergedOnNone(obj, original);
    while todo != {}
      invariant todo + done == original.Keys && todo !! done
      invariant r == MergedOn(obj, original, done)
      decreases todo
    {
      var e :| e in todo;
      MergedOnStep(obj, original, done, e);
      r := Visit(r, original, e);
      todo := todo - {e};
      done := done + {e};
    }
    assert done == original.Keys;
    assert r == Merged(obj, original);
  }

  /** Merging the same defaults twice changes nothing more. */
  lemma MergedIdempotent<V>(obj: map<string, Option<V>>, original: map<string, Option<V>>)
    ensures Merged(Merged(obj, original), original) == Merged(obj, original)
  {
    var once := Merged(obj, original);
    forall e | e in once ensures Merged(once, original)[e] == once[e] {
      if e in original && Get(once, e).None? {
        assert Get(obj, e).None?;
      }
    }
  }

  /** Defaults with no `undefined` values leave no property of theirs
      `undefined`. */
  lemma MergedFillsDefaults<V>(obj: map<string, Option<V>>, original: map<string, Option<V>>, e: string)
    requires e in original && original[e].Some?
    ensures Get(Merged(obj, original), e).Some?
  {
  }
}

=== FILE: scale.dfy ===
/** The modular-scale generator `generateSequence` and its letter table
    `numToLetterMap` (src/utils/index.js). */
module Scale {
  import opened Wrappers
  import opened Numbers

  /** `numToLetterMap[k]`: offsets -6..9 have a letter, any other offset
      reads as `undefined`. */
  function Letter(k: int): (r: Option<char>)
    ensures r.Some? <==> -6 <= k <= 9
    ensures r.Some? ==> 'A' <= r.value <= 'Z'
  {
    match k
    case -6 => Some('U')
    case -5 => Some('V')
    case -4 => Some('W')
    case -3 => Some('X')
    case -2 => Some('Y')
    case -1 => Some('Z')
    case 0 => Some('A')
    case 1 => Some('B')
    case 2 => Some('C')
    case 3 => Some('D')
    case 4 => Some('E')
    case 5 => Some('F')
    case 6 => Some('G')
    case 7 => Some('H')
    case 8 => Some('I')
    case 9 => Some('J')
    case _ => None
  }

  /** Distinct offsets in -6..9 get distinct letters. */
  lemma LetterInjective(k1: int, k2: int)
    requires Letter(k1).Some? && Letter(k1) == Letter(k2)
    ensures k1 == k2
  {
  }

  /** The letter as it is concatenated into a label: a missing one prints
      as `undefined`. */
  function LetterText(k: int): string {
    match Letter(k)
    case Some(c) => [c]
    case None => "undefined"
  }

  /** `'--' + type + '-' + letterKey`. */
  function Label(kind: string, k: int): (l: string)
    ensures |l| > |kind| + 3 && l[..|kind| + 3] == "--" + kind + "-"
    ensures Letter(k).Some? ==> |l| == |kind| + 4 && l[|kind| + 3] == Letter(k).value
    ensures Letter(k).None? ==> l[|kind| + 3..] == "undefined"
  {
    "--" + kind + "-" + LetterText(k)
  }

  /** Two offsets share a label only when they are equal or both lack a
      letter, in which case both labels end in `undefined`. */
  lemma {:induction false} LabelInjective(kind: string, k1: int, k2: int)
    requires Label(kind, k1) == Label(kind, k2)
    ensures k1 == k2 || (Letter(k1).None? && Letter(k2).None?)
  {
    var prefix := "--" + kind + "-";
    assert Label(kind, k1)[|prefix|..] == LetterText(k1);
    assert Label(kind, k2)[|prefix|..] == LetterText(k2);
    if Letter(k1).Some? && Letter(k2).Some? {
      assert LetterText(k1)[0] == Letter(k1).value;
      assert LetterText(k2)[0] == Letter(k2).value;
      LetterInjective(k1, k2);
    }
  }

  /** The caller's object: label prefix, base, ratio and the range
      `[lo, hi]`. */
  datatype Config = Config(kind: string, base: real, ratio: real, lo: int, hi: int)

  /** A zero base makes every scaling `0/0`, and a zero ratio with a
      negative exponent is Infinity; neither is a real number. */
  predicate Valid(cfg: Config) {
    cfg.base != 0.0 && cfg.ratio != 0.0
  }

  /** One entry of `state.sequence`. */
  datatype Step = Step(decimal: real, val: int, scaling: real)

  /** The entry computed for offset `k`: the value `base * ratio^k` rounded
      to two decimals and to an integer, and its scaling `value / base`
      rounded to three decimals. */
  function StepAt(cfg: Config, k: int): (s: Step)
    requires Valid(cfg)
    ensures s.scaling == Round(Pow(cfg.ratio, k) * 1000.0) as real / 1000.0
    ensures s.val == Round(cfg.base * Pow(cfg.ratio, k))
  {
    var value := cfg.base * Pow(cfg.ratio, k);
    assert value / cfg.base == Pow(cfg.ratio, k);
    Step(Round(value * 100.0) as real / 100.0, Round(value), Round(value / cfg.base * 1000.0) as real / 1000.0)
  }

  /** Offset 0 is the base itself, with scaling exactly 1. */
  lemma StepAtZero(cfg: Config)
    requires Valid(cfg)
    ensures StepAt(cfg, 0) == Step(Round(cfg.base * 100.0) as real / 100.0, Round(cfg.base), 1.0)
  {
    assert Pow(cfg.ratio, 0) == 1.0;
    assert Round(1000.0) == 1000 by { RoundOfInteger(1000); }
  }

  /** `state.sequence` and `state.scales`, updated in place by the source. */
  datatype Tables = Tables(sequence: map<string, Step>, scales: map<string, real>)

  /** How the loop names the entry of an offset. */
  type Naming = int -> string

  /** One iteration of the loop: both tables get the entry for offset `k`
      under the name `name(k)`. */
  function Write(cfg: Config, name: Naming, k: int, t: Tables): (r: Tables)
    requires Valid(cfg)
  {
    var s := StepAt(cfg, k);
    Tables(t.sequence[name(k) := s], t.scales[name(k) := s.scaling])
  }

  /** The names of the offsets `low..high`. */
  function Labels(name: Naming, low: int, high: int): set<string>
    decreases high - low
  {
    if high < low then {} else Labels(name, low, high - 1) + {name(high)}
  }

  /** The name of every offset in `low..high` is among them. */
  lemma {:induction false} LabelsComplete(name: Naming, low: int, high: int, k: int)
    requires low <= k <= high
    ensures name(k) in Labels(name, low, high)
    decreases high - low
  {
    if k < high {
      LabelsComplete(name, low, high - 1, k);
    }
  }

  /** Every name among them is the name of an offset in `low..high`. */
  lemma {:induction false} LabelsExact(name: Naming, low: int, high: int, l: string)
    requires l in Labels(name, low, high)
    ensures exists k :: low <= k <= high && l == name(k)
    decreases high - low
  {
    if l != name(high) {
      LabelsExact(name, low, high - 1, l);
    }
  }

  /** How many names `low..high` have when no two offsets share one. */
  lemma {:induction false} LabelsCount(name: Naming, low: int, high: int)
    requires low <= high + 1
    requires forall j, k | low <= j < k <= high :: name(j) != name(k)
    ensures |Labels(name, low, high)| == high - low + 1
    decreases high - low
  {
    if low <= high {
      LabelsCount(name, low, high - 1);
      if name(high) in Labels(name, low, high - 1) {
        LabelsExact(name, low, high - 1, name(high));
      }
    }
  }

  /** No offset written after `k` (the loop counts down to `stop`) has the
      name of `k`, so the entry for `k` survives the loop. */
  predicate WrittenLast(name: Naming, stop: int, k: int) {
    forall j | stop <= j < k :: name(j) != name(k)
  }

  /** An offset written last is not among the names written after it. */
  lemma LastNotRewritten(name: Naming, stop: int, k: int)
    requires WrittenLast(name, stop, k)
    ensures name(k) !in Labels(name, stop, k - 1)
  {
    if name(k) in Labels(name, stop, k - 1) {
      LabelsExact(name, stop, k - 1, name(k));
    }
  }

  /** Iterations `i..n` of the loop of `generateSequence`, writing offsets
      `hi - i` down to `hi - n`. */
  function Fill(cfg: Config, name: Naming, n: nat, i: nat, t: Tables): Tables
    requires Valid(cfg)
    decreases n + 1 - i
  {
    if i > n then t else Fill(cfg, name, n, i + 1, Write(cfg, name, cfg.hi - i, t))
  }

  /** The loop adds exactly the names of the offsets it visits, to both tables. */
  lemma {:induction false} FillKeys(cfg: Config, name: Naming, n: nat, i: nat, t: Tables)
    requires Valid(cfg)
    ensures Fill(cfg, name, n, i, t).sequence.Keys == t.sequence.Keys + Labels(name, cfg.hi - n, cfg.hi - i)
    ensures Fill(cfg, name, n, i, t).scales.Keys == t.scales.Keys + Labels(name, cfg.hi - n, cfg.hi - i)
    decreases n + 1 - i
  {
    if i <= n {
      var t' := Write(cfg, name, cfg.hi - i, t);
      assert Fill(cfg, name, n, i, t) == Fill(cfg, name, n, i + 1, t');
      assert Labels(name, cfg.hi - n, cfg.hi - i) == Labels(name, cfg.hi - n, cfg.hi - (i + 1)) + {name(cfg.hi - i)};
      FillKeys(cfg, name, n, i + 1, t');
    }
  }

  /** Entries under names the loop does not visit are left as they were. */
  lemma {:induction false} FillKeeps(cfg: Config, name: Naming, n: nat, i: nat, t: Tables, l: string)
    requires Valid(cfg)
    requires l !in Labels(name, cfg.hi - n, cfg.hi - i)
    ensures l in t.sequence ==> l in Fill(cfg, name, n, i, t).sequence && Fill(cfg, name, n, i, t).sequence[l] == t.sequence[l]
    ensures l in t.scales ==> l in Fill(cfg, name, n, i, t).scales && Fill(cfg, name, n, i, t).scales[l] == t.scales[l]
    decreases n + 1 - i
  {
    if i <= n {
      FillKeeps(cfg, name, n, i + 1, Write(cfg, name, cfg.hi - i, t), l);
    }
  }

  /** Every visited name holds, in `scales`, the scaling of its `sequence` entry. */
  lemma {:induction false} FillParallel(cfg: Config, name: Naming, n: nat, i: nat, t: Tables, l: string)
    requires Valid(cfg)
    requires l in Labels(name, cfg.hi - n, cfg.hi - i)
    ensures l in Fill(cfg, name, n, i, t).sequence && l in Fill(cfg, name, n, i, t).scales
    ensures Fill(cfg, name, n, i, t).scales[l] == Fill(cfg, name, n, i, t).sequence[l].scaling
    decreases n + 1 - i
  {
    var t' := Write(cfg, name, cfg.hi - i, t);
    assert Fill(cfg, name, n, i, t) == Fill(cfg, name, n, i + 1, t');
    if l in Labels(name, cfg.hi - n, cfg.hi - (i + 1)) {
      FillParallel(cfg, name, n, i + 1, t', l);
    } else {
      assert l == name(cfg.hi - i);
      FillKeeps(cfg, name, n, i + 1, t', l);
    }
  }

  /** An offset whose name is not written again later holds its own entry. */
  lemma {:induction false} FillLast(cfg: Config, name: Naming, n: nat, i: nat, t: Tables, k: int)
    requires Valid(cfg)
    requires cfg.hi - n <= k <= cfg.hi - i && WrittenLast(name, cfg.hi - n, k)
    ensures name(k) in Fill(cfg, name, n, i, t).sequence
    ensures Fill(cfg, name, n, i, t).sequence[name(k)] == StepAt(cfg, k)
    decreases n + 1 - i
  {
    var t' := Write(cfg, name, cfg.hi - i, t);
    assert Fill(cfg, name, n, i, t) == Fill(cfg, name, n, i + 1, t');
    if k < cfg.hi - i {
      FillLast(cfg, name, n, i + 1, t', k);
    } else {
      assert name(k) in t'.sequence && t'.sequence[name(k)] == StepAt(cfg, k);
      LastNotRewritten(name, cfg.hi - n, k);
      assert name(k) !in Labels(name, cfg.hi - n, cfg.hi - (i + 1));
      FillKeeps(cfg, name, n, i + 1, t', name(k));
    }
  }

  /** Labels as `generateSequence` builds them for the prefix `kind`. */
  function Namer(kind: string): Naming {
    k => Label(kind, k)
  }

  /** An offset with a letter is never named again by a later offset. */
  lemma InRangeWrittenLast(kind: string, stop: int, k: int)
    requires -6 <= k <= 9
    ensures WrittenLast(Namer(kind), stop, k)
  {
    forall j | stop <= j < k ensures Label(kind, j) != Label(kind, k) {
      if Label(kind, j) == Label(kind, k) {
        LabelInjective(kind, j, k);
      }
    }
  }

  /** The first offset without a letter that a countdown from `high` to
      `low` reaches last: the smallest one in `low..high`. */
  function LastUnlettered(low: int, high: int): (r: Option<int>)
    ensures r.Some? ==> low <= r.value <= high && Letter(r.value).None?
    ensures r.Some? ==> forall j | low <= j < r.value :: Letter(j).Some?
    ensures r.None? ==> forall j | low <= j <= high :: Letter(j).Some?
  {
    if high < low then None
    else if low < -6 || low > 9 then Some(low)
    else if high >= 10 then Some(10)
    else None
  }

  /** The label every offset without a letter shares. */
  function UndefinedLabel(kind: string): string {
    "--" + kind + "-undefined"
  }

  /** The smallest unlettered offset is the last to write the shared
      `undefined` label. */
  lemma UnletteredWrittenLast(kind: string, low: int, high: int)
    requires LastUnlettered(low, high).Some?
    ensures Label(kind, LastUnlettered(low, high).value) == UndefinedLabel(kind)
    ensures WrittenLast(Namer(kind), low, LastUnlettered(low, high).value)
  {
    var k := LastUnlettered(low, high).value;
    forall j | low <= j < k ensures Label(kind, j) != Label(kind, k) {
      if Label(kind, j) == Label(kind, k) {
        LabelInjective(kind, j, k);
      }
    }
  }

  lemma GenerateKeys(cfg: Config, n: nat, t: Tables)
    requires Valid(cfg)
    ensures Fill(cfg, Namer(cfg.kind), n, 0, t).sequence.Keys == t.sequence.Keys + Labels(Namer(cfg.kind), cfg.hi - n, cfg.hi)
    ensures Fill(cfg, Namer(cfg.kind), n, 0, t).scales.Keys == t.scales.Keys + Labels(Namer(cfg.kind), cfg.hi - n, cfg.hi)
  {
    FillKeys(cfg, Namer(cfg.kind), n, 0, t);
  }

  lemma GenerateKeeps(cfg: Config, n: nat, t: Tables)
    requires Valid(cfg)
    ensures var r := Fill(cfg, Namer(cfg.kind), n, 0, t);
            forall l | l in t.sequence && l !in Labels(Namer(cfg.kind), cfg.hi - n, cfg.hi) ::
              l in r.sequence && r.sequence[l] == t.sequence[l]
    ensures var r := Fill(cfg, Namer(cfg.kind), n, 0, t);
            forall l | l in t.scales && l !in Labels(Namer(cfg.kind), cfg.hi - n, cfg.hi) ::
              l in r.scales && r.scales[l] == t.scales[l]
  {
    forall l | l !in Labels(Namer(cfg.kind), cfg.hi - n, cfg.hi) {
      FillKeeps(cfg, Namer(cfg.kind), n, 0, t, l);
    }
  }

  lemma GenerateParallel(cfg: Config, n: nat, t: Tables)
    requires Valid(cfg)
    ensures var r := Fill(cfg, Namer(cfg.kind), n, 0, t);
            forall l | l in Labels(Namer(cfg.kind), cfg.hi - n, cfg.hi) ::
              l in r.sequence && l in r.scales && r.scales[l] == r.sequence[l].scaling
  {
    FillKeys(cfg, Namer(cfg.kind), n, 0, t);
    forall l | l in Labels(Namer(cfg.kind), cfg.hi - n, cfg.hi) {
      FillParallel(cfg, Namer(cfg.kind), n, 0, t, l);
    }
  }

  lemma GenerateLettered(cfg: Config, n: nat, t: Tables)
    requires Valid(cfg)
    ensures var r := Fill(cfg, Namer(cfg.kind), n, 0, t);
            forall k | cfg.hi - n <= k <= cfg.hi && -6 <= k <= 9 ::
              Label(cfg.kind, k) in r.sequence && r.sequence[Label(cfg.kind, k)] == StepAt(cfg, k)
  {
    var name := Namer(cfg.kind);
    forall k | cfg.hi - n <= k <= cfg.hi && -6 <= k <= 9
      ensures Label(cfg.kind, k) in Fill(cfg, name, n, 0, t).sequence
      ensures Fill(cfg, name, n, 0, t).sequence[Label(cfg.kind, k)] == StepAt(cfg, k)
    {
      assert name(k) == Label(cfg.kind, k);
      InRangeWrittenLast(cfg.kind, cfg.hi - n, k);
      FillLast(cfg, Namer(cfg.kind), n, 0, t, k);
    }
  }

  lemma GenerateUnlettered(cfg: Config, n: nat, t: Tables)
    requires Valid(cfg)
    ensures var r := Fill(cfg, Namer(cfg.kind), n, 0, t);
            LastUnlettered(cfg.hi - n, cfg.hi).Some? ==>
              UndefinedLabel(cfg.kind) in r.sequence &&
              r.sequence[UndefinedLabel(cfg.kind)] == StepAt(cfg, LastUnlettered(cfg.hi - n, cfg.hi).value)
  {
    if LastUnlettered(cfg.hi - n, cfg.hi).Some? {
      UnletteredWrittenLast(cfg.kind, cfg.hi - n, cfg.hi);
      FillLast(cfg, Namer(cfg.kind), n, 0, t, LastUnlettered(cfg.hi - n, cfg.hi).value);
    }
  }

  /** The loop of `generateSequence` run for loop indices `0..n`, that is
      offsets `hi` down to `hi - n`: both tables gain exactly the labels of
      those offsets and keep every other entry; each lettered offset holds
      its own entry, the shared `undefined` label holds the entry of the
      last unlettered offset visited, and `scales` mirrors the scalings. */
  function Generate(cfg: Config, n: nat, t: Tables): (r: Tables)
    requires Valid(cfg)
    ensures r.sequence.Keys == t.sequence.Keys + Labels(Namer(cfg.kind), cfg.hi - n, cfg.hi)
    ensures r.scales.Keys == t.scales.Keys + Labels(Namer(cfg.kind), cfg.hi - n, cfg.hi)
    ensures forall l | l in t.sequence && l !in Labels(Namer(cfg.kind), cfg.hi - n, cfg.hi) ::
              r.sequence[l] == t.sequence[l]
    ensures forall l | l in t.scales && l !in Labels(Namer(cfg.kind), cfg.hi - n, cfg.hi) ::
              r.scales[l] == t.scales[l]
    ensures forall l | l in Labels(Namer(cfg.kind), cfg.hi - n, cfg.hi) ::
              r.scales[l] == r.sequence[l].scaling
    ensures forall k | cfg.hi - n <= k <= cfg.hi && -6 <= k <= 9 ::
              Label(cfg.kind, k) in r.sequence && r.sequence[Label(cfg.kind, k)] == StepAt(cfg, k)
    ensures LastUnlettered(cfg.hi - n, cfg.hi).Some? ==>
              UndefinedLabel(cfg.kind) in r.sequence &&
              r.sequence[UndefinedLabel(cfg.kind)] == StepAt(cfg, LastUnlettered(cfg.hi - n, cfg.hi).value)
  {
    GenerateKeeps(cfg, n, t);
    GenerateParallel(cfg, n, t);
    GenerateLettered(cfg, n, t);
    GenerateUnlettered(cfg, n, t);
    GenerateKeys(cfg, n, t);
    Fill(cfg, Namer(cfg.kind), n, 0, t)
  }

  /** `Math.abs(range[0]) + Math.abs(range[1])`: the last loop index. It
      is the width of the range only when the range straddles 0, and never
      less than it. */
  function LastIndex(cfg: Config): (n: nat)
    ensures cfg.lo <= 0 <= cfg.hi <==> n == cfg.hi - cfg.lo
    ensures n >= cfg.hi - cfg.lo
  {
    (if cfg.lo < 0 then -cfg.lo else cfg.lo) + (if cfg.hi < 0 then -cfg.hi else cfg.hi)
  }

  /** `generateSequence` as written: offsets `hi` down to `hi - LastIndex(cfg)`. */
  function GenerateSequence(cfg: Config, t: Tables): (r: Tables)
    requires Valid(cfg)
    ensures r.sequence.Keys == t.sequence.Keys + Labels(Namer(cfg.kind), cfg.hi - LastIndex(cfg), cfg.hi)
    ensures r.scales.Keys == t.scales.Keys + Labels(Namer(cfg.kind), cfg.hi - LastIndex(cfg), cfg.hi)
  {
    Generate(cfg, LastIndex(cfg), t)
  }

  /** `generateSequence` visiting exactly the offsets of the range, from
      `range[1]` down to `range[0]`. */
  function GenerateSequenceCorrected(cfg: Config, t: Tables): (r: Tables)
    requires Valid(cfg) && cfg.lo <= cfg.hi
    ensures r.sequence.Keys == t.sequence.Keys + Labels(Namer(cfg.kind), cfg.lo, cfg.hi)
    ensures r.scales.Keys == t.scales.Keys + Labels(Namer(cfg.kind), cfg.lo, cfg.hi)
    ensures forall k | cfg.lo <= k <= cfg.hi && -6 <= k <= 9 ::
              Label(cfg.kind, k) in r.sequence && r.sequence[Label(cfg.kind, k)] == StepAt(cfg, k)
  {
    Generate(cfg, cfg.hi - cfg.lo, t)
  }

  /** For a range that straddles 0 the two agree. */
  lemma StraddlingAgrees(cfg: Config, t: Tables)
    requires Valid(cfg) && cfg.lo <= 0 <= cfg.hi
    ensures GenerateSequence(cfg, t) == GenerateSequenceCorrected(cfg, t)
  {
  }

  /** Otherwise the source visits offsets below `range[0]`. */
  lemma OffsideOvershoots(cfg: Config)
    requires cfg.lo <= cfg.hi && !(cfg.lo <= 0 <= cfg.hi)
    ensures cfg.hi - LastIndex(cfg) < cfg.lo
  {
  }

  /** The range `[2, 5]` writes the entry for offset -2, labelled with `Y`,
      which the range does not contain. */
  lemma OvershootExample(kind: string, base: real, ratio: real)
    requires base != 0.0 && ratio != 0.0
    ensures var cfg := Config(kind, base, ratio, 2, 5);
            var empty := Tables(map[], map[]);
            && Label(kind, -2) in GenerateSequence(cfg, empty).sequence
            && Label(kind, -2) !in GenerateSequenceCorrected(cfg, empty).sequence
  {
    var cfg := Config(kind, base, ratio, 2, 5);
    assert LastIndex(cfg) == 7;
    LabelsComplete(Namer(kind), -2, 5, -2);
    if Label(kind, -2) in Labels(Namer(kind), 2, 5) {
      LabelsExact(Namer(kind), 2, 5, Label(kind, -2));
      var k :| 2 <= k <= 5 && Label(kind, -2) == Namer(kind)(k);
      LabelInjective(kind, -2, k);
    }
  }

  /** A range inside -6..9 gives one entry per offset, with no label shared. */
  lemma InRangeCount(cfg: Config)
    requires Valid(cfg) && -6 <= cfg.lo <= cfg.hi <= 9
    ensures |GenerateSequenceCorrected(cfg, Tables(map[], map[])).sequence| == cfg.hi - cfg.lo + 1
    ensures UndefinedLabel(cfg.kind) !in GenerateSequenceCorrected(cfg, Tables(map[], map[])).sequence
  {
    var name := Namer(cfg.kind);
    forall j, k | cfg.lo <= j < k <= cfg.hi ensures name(j) != name(k) {
      if name(j) == name(k) {
        LabelInjective(cfg.kind, j, k);
      }
    }
    LabelsCount(name, cfg.lo, cfg.hi);
    if UndefinedLabel(cfg.kind) in Labels(name, cfg.lo, cfg.hi) {
      LabelsExact(name, cfg.lo, cfg.hi, UndefinedLabel(cfg.kind));
    }
  }
}

=== FILE: text.dfy ===
/** The string operations the colour parser relies on: `toLowerCase`,
    `indexOf`, the global match of the character class `[.\d]`, and the
    unary `+` that turns each match into a number. */
module Text {
  import opened Numbers

  predicate IsDigit(c: char) {
    '0' <= c <= '9'
  }

  /** The regular-expression class `[.\d]` (`\d` is ASCII `0-9`). */
  predicate IsNumChar(c: char) {
    c == '.' || IsDigit(c)
  }

  predicate IsHexDigit(c: char) {
    IsDigit(c) || 'a' <= c <= 'f' || 'A' <= c <= 'F'
  }

  predicate AllNum(w: string) {
    forall i | 0 <= i < |w| :: IsNumChar(w[i])
  }

  predicate AllDigits(w: string) {
    forall i | 0 <= i < |w| :: IsDigit(w[i])
  }

  function DigitValue(c: char): (v: nat)
    requires IsDigit(c)
    ensures v < 10
  {
    c as int - '0' as int
  }

  function HexValue(c: char): (v: nat)
    requires IsHexDigit(c)
    ensures v < 16
  {
    if IsDigit(c) then DigitValue(c)
    else if 'a' <= c <= 'f' then c as int - 'a' as int + 10
    else c as int - 'A' as int + 10
  }

  /** `toLowerCase` on one character. Only `A-Z` is folded; no other
      character lower-cases into the ASCII letters of `transparent`, so the
      comparison the parser makes is decided exactly. */
  function LowerChar(c: char): (d: char)
    ensures 'A' <= c <= 'Z' ==> 'a' <= d <= 'z' && d as int - c as int == 32
    ensures !('A' <= c <= 'Z') ==> d == c
  {
    if 'A' <= c <= 'Z' then (c as int + 32) as char else c
  }

  function ToLower(s: string): (r: string)
    ensures |r| == |s|
    ensures forall i | 0 <= i < |s| :: r[i] == LowerChar(s[i])
  {
    if |s| == 0 then "" else [LowerChar(s[0])] + ToLower(s[1..])
  }

  /** `p` occurs in `s` starting at index `i`. */
  predicate OccursAt(s: string, p: string, i: int) {
    0 <= i && i + |p| <= |s| && s[i..i + |p|] == p
  }

  /** `s.indexOf(p, i)`: the first occurrence of `p` at or after `i`, or -1. */
  function IndexOfFrom(s: string, p: string, i: nat): (r: int)
    requires i <= |s|
    ensures r == -1 || (i <= r && OccursAt(s, p, r))
    ensures r == -1 <==> forall j | i <= j <= |s| :: !OccursAt(s, p, j)
    ensures forall j | i <= j < r :: !OccursAt(s, p, j)
    decreases |s| - i
  {
    if i + |p| > |s| then -1
    else if s[i..i + |p|] == p then i
    else IndexOfFrom(s, p, i + 1)
  }

  /** `s.indexOf(p)`. */
  function IndexOf(s: string, p: string): (r: int)
    ensures r == -1 || OccursAt(s, p, r)
    ensures r == -1 <==> forall j | 0 <= j <= |s| :: !OccursAt(s, p, j)
    ensures forall j | 0 <= j < r :: !OccursAt(s, p, j)
  {
    IndexOfFrom(s, p, 0)
  }

  /** The length of the longest prefix of `s` whose characters satisfy `p`. */
  function Span(s: string, p: char -> bool): (k: nat)
    ensures k <= |s|
    ensures forall i | 0 <= i < k :: p(s[i])
    ensures k < |s| ==> !p(s[k])
  {
    if |s| == 0 || !p(s[0]) then 0 else 1 + Span(s[1..], p)
  }

  /** The maximal runs of `[.\d]` in `s`, in order: what
      `s.match(/[\.\d]+/g)` returns (an empty sequence stands for `null`). */
  function Runs(s: string): (r: seq<string>)
    ensures forall j | 0 <= j < |r| :: |r[j]| > 0 && AllNum(r[j])
    decreases |s|
  {
    if |s| == 0 then []
    else if !IsNumChar(s[0]) then Runs(s[1..])
    else
      var k := Span(s, IsNumChar);
      [s[..k]] + Runs(s[k..])
  }

  function Flatten(ws: seq<string>): string {
    if |ws| == 0 then "" else ws[0] + Flatten(ws[1..])
  }

  /** The characters of `s` that belong to `[.\d]`, in order. */
  function KeepNum(s: string): (r: string)
    ensures AllNum(r)
  {
    if |s| == 0 then ""
    else if IsNumChar(s[0]) then [s[0]] + KeepNum(s[1..])
    else KeepNum(s[1..])
  }

  lemma {:induction false} KeepNumAppend(a: string, b: string)
    ensures KeepNum(a + b) == KeepNum(a) + KeepNum(b)
    decreases |a|
  {
    if |a| > 0 {
      assert (a + b)[1..] == a[1..] + b;
      KeepNumAppend(a[1..], b);
    } else {
      assert a + b == b;
    }
  }

  lemma {:induction false} KeepNumAllNum(a: string)
    requires AllNum(a)
    ensures KeepNum(a) == a
    decreases |a|
  {
    if |a| > 0 {
      KeepNumAllNum(a[1..]);
    }
  }

  /** The runs lose no `[.\d]` character and keep their source order:
      concatenated, they are exactly the number characters of `s`. */
  lemma {:induction false} RunsKeepOrder(s: string)
    ensures Flatten(Runs(s)) == KeepNum(s)
    decreases |s|
  {
    if |s| > 0 {
      if !IsNumChar(s[0]) {
        RunsKeepOrder(s[1..]);
      } else {
        var k := Span(s, IsNumChar);
        assert s == s[..k] + s[k..];
        RunsKeepOrder(s[k..]);
        KeepNumAppend(s[..k], s[k..]);
        KeepNumAllNum(s[..k]);
      }
    }
  }

  lemma {:induction false} SpanSeparated(a: string, b: string)
    requires |b| > 0 && !IsNumChar(b[0])
    ensures Span(a + b, IsNumChar) == Span(a, IsNumChar)
    decreases |a|
  {
    if |a| > 0 && IsNumChar(a[0]) {
      assert (a + b)[1..] == a[1..] + b;
      SpanSeparated(a[1..], b);
    }
  }

  /** A non-number character ends every run: the runs of `a + b` are those
      of `a` followed by those of `b`. */
  lemma {:induction false} RunsSeparated(a: string, b: string)
    requires |b| > 0 && !IsNumChar(b[0])
    ensures Runs(a + b) == Runs(a) + Runs(b)
    decreases |a|
  {
    if |a| == 0 {
      assert a + b == b;
    } else if !IsNumChar(a[0]) {
      assert (a + b)[1..] == a[1..] + b;
      RunsSeparated(a[1..], b);
    } else {
      var k := Span(a, IsNumChar);
      SpanSeparated(a, b);
      RunsHead(a + b);
      RunsHead(a);
      assert (a + b)[..k] == a[..k];
      assert (a + b)[k..] == a[k..] + b;
      RunsSeparated(a[k..], b);
    }
  }

  /** A string that starts with a number character starts with its first
      run. */
  lemma RunsHead(s: string)
    requires |s| > 0 && IsNumChar(s[0])
    ensures Runs(s) == [s[..Span(s, IsNumChar)]] + Runs(s[Span(s, IsNumChar)..])
  {
  }

  /** A string of number characters is one run from end to end. */
  lemma {:induction false} SpanAll(w: string)
    requires AllNum(w)
    ensures Span(w, IsNumChar) == |w|
    decreases |w|
  {
    if |w| > 0 {
      SpanAll(w[1..]);
    }
  }

  /** A nonempty string of number characters is its own single run. */
  lemma RunsWhole(w: string)
    requires |w| > 0 && AllNum(w)
    ensures Runs(w) == [w]
  {
    SpanAll(w);
    assert w[..|w|] == w && w[|w|..] == "";
  }

  /** Characters outside `[.\d]` in front of `s` add no run. */
  lemma {:induction false} RunsSkip(p: string, s: string)
    requires forall i | 0 <= i < |p| :: !IsNumChar(p[i])
    ensures Runs(p + s) == Runs(s)
    decreases |p|
  {
    if |p| == 0 {
      assert p + s == s;
    } else {
      assert (p + s)[1..] == p[1..] + s;
      RunsSkip(p[1..], s);
    }
  }

  /** The value of a string of decimal digits (`""` is 0). */
  function Decimal(w: string): (v: nat)
    requires AllDigits(w)
  {
    if |w| == 0 then 0 else 10 * Decimal(w[..|w| - 1]) + DigitValue(w[|w| - 1])
  }

  function Pow10(n: nat): (p: nat)
    ensures p >= 1
  {
    if n == 0 then 1 else 10 * Pow10(n - 1)
  }

  /** Unary `+` on a run of `[.\d]`: digits with at most one point and at
      least one digit read as a decimal number; anything else (`"."`,
      `"1.2.3"`) is NaN. */
  function ToNumber(w: string): (r: Num)
    requires AllNum(w)
    ensures AllDigits(w) ==> r == Finite(Decimal(w) as real)
    ensures w == "." ==> r == NaN
  {
    var d := Span(w, IsDigit);
    if d == |w| then Finite(Decimal(w) as real)
    else
      var whole := w[..d];
      var frac := w[d + 1..];
      if Span(frac, IsDigit) < |frac| || (|whole| == 0 && |frac| == 0) then NaN
      else Finite(Decimal(whole) as real + Fraction(frac))
  }

  /** The digits after a point: `q` read as a fraction of one, so that
      scaling it back by the matching power of ten gives `q`'s value. */
  function Fraction(q: string): (f: real)
    requires AllDigits(q)
    ensures 0.0 <= f
  {
    Decimal(q) as real / Pow10(|q|) as real
  }

  /** A run with one point, `p.q`, reads as the whole part `p` plus the
      fraction `q`, as unary `+` reads `"0.5"`, `".25"` or `"7."`. */
  lemma ToNumberPoint(p: string, q: string)
    requires AllDigits(p) && AllDigits(q) && |p| + |q| > 0
    ensures AllNum(p + "." + q)
    ensures ToNumber(p + "." + q) == Finite(Decimal(p) as real + Fraction(q))
  {
    PointSplit(p, q);
    ToNumberOnePoint(p + "." + q, p, q);
  }

  /** `w` is digits, then a point at `d`, then digits, with a digit
      somewhere. */
  predicate OnePoint(w: string, d: nat) {
    AllNum(w) && d < |w| && |w| > 1 && Span(w, IsDigit) == d
    && Span(w[d + 1..], IsDigit) == |w[d + 1..]|
  }

  /** `p.q` splits at its point into `p` and `q`. */
  lemma PointSplit(p: string, q: string)
    requires AllDigits(p) && AllDigits(q) && |p| + |q| > 0
    ensures OnePoint(p + "." + q, |p|)
    ensures (p + "." + q)[..|p|] == p && (p + "." + q)[|p| + 1..] == q
  {
    var w := p + "." + q;
    DigitsPointNum(p, q);
    SpanDigitsUntil(p, "." + q);
    assert w == p + ("." + q);
    assert w[|p| + 1..] == q;
    SpanDigits(q);
  }

  /** A run whose digit prefix ends at a point followed only by digits, with
      at least one digit on either side, reads as whole part plus fraction. */
  lemma ToNumberOnePoint(w: string, p: string, q: string)
    requires OnePoint(w, |p|) && w[..|p|] == p && w[|p| + 1..] == q
    ensures AllDigits(p) && AllDigits(q)
    ensures ToNumber(w) == Finite(Decimal(p) as real + Fraction(q))
  {
  }

  /** Digits, a point and digits are all number characters. */
  lemma DigitsPointNum(p: string, q: string)
    requires AllDigits(p) && AllDigits(q)
    ensures AllNum(p + "." + q)
  {
    var w := p + "." + q;
    forall i | 0 <= i < |w| ensures IsNumChar(w[i]) {
      if i < |p| {
        assert w[i] == p[i];
      } else if i > |p| {
        assert w[i] == q[i - |p| - 1];
      }
    }
  }

  /** The digit prefix of digits followed by a non-digit is those digits. */
  lemma {:induction false} SpanDigitsUntil(p: string, rest: string)
    requires AllDigits(p) && |rest| > 0 && !IsDigit(rest[0])
    ensures Span(p + rest, IsDigit) == |p|
    decreases |p|
  {
    if |p| == 0 {
      assert p + rest == rest;
    } else {
      assert (p + rest)[0] == p[0];
      assert (p + rest)[1..] == p[1..] + rest;
      SpanDigitsUntil(p[1..], rest);
    }
  }

  /** A string of digits is its own digit prefix. */
  lemma {:induction false} SpanDigits(q: string)
    requires AllDigits(q)
    ensures Span(q, IsDigit) == |q|
    decreases |q|
  {
    if |q| > 0 {
      SpanDigits(q[1..]);
    }
  }

  /** A run with a second point, such as `"1.2.3"`, is NaN. */
  lemma ToNumberTwoPoints(p: string, q: string, r: string)
    requires AllDigits(p) && AllDigits(q) && AllNum(r)
    ensures AllNum(p + "." + q + "." + r)
    ensures ToNumber(p + "." + q + "." + r) == NaN
  {
    var w := p + "." + q + "." + r;
    assert w[|p|] == '.';
    var d := Span(w, IsDigit);
    assert forall i | 0 <= i < |p| :: w[i] == p[i];
    assert d == |p|;
    var frac := w[d + 1..];
    assert frac == q + "." + r;
    assert frac[|q|] == '.';
    assert !IsDigit(frac[|q|]);
  }

  function ToNumbers(ws: seq<string>): (r: seq<Num>)
    requires forall j | 0 <= j < |ws| :: AllNum(ws[j])
    ensures |r| == |ws|
    ensures forall j | 0 <= j < |ws| :: r[j] == ToNumber(ws[j])
  {
    if |ws| == 0 then [] else [ToNumber(ws[0])] + ToNumbers(ws[1..])
  }
}

=== FILE: tokens.dfy ===
/** Token lookup against a generated table: `fallBack`, `mapPadding` and
    `mapFontSize` (src/utils/index.js). A table is the `sequence` map that
    `generateSequence` fills, or nothing when the caller passes `null` or
    `undefined` in its place. */
module Tokens {
  import opened Wrappers
  import opened Scale

  /** A declared length: the absolute form `val + Unit.default` or the
      relative form `scaling + 'em'`. */
  datatype Length = Absolute(amount: int) | Em(factor: real)

  /** A style object: property name to length. */
  type Style = map<string, Length>

  /** The key `fallBack` looks up when the caller gives none. */
  const DefaultKey: string := "--font-size-A"

  /** The key looked up: `val`, or the default when it is `undefined`. */
  function KeyOf(val: Option<string>): (key: string)
    ensures val.Some? ==> key == val.value
    ensures val.None? ==> key == DefaultKey
  {
    val.GetOr(DefaultKey)
  }

  /** The object literal `{ [prop]: value.val + unit, [prop]: value.scaling + 'em' }`:
      both members have the same computed key, so the second replaces the
      first. */
  function StyleOf(prop: string, s: Step): (r: Style)
    ensures r.Keys == {prop}
    ensures r[prop] == Em(s.scaling)
  {
    map[prop := Absolute(s.val)][prop := Em(s.scaling)]
  }

  /** `fallBack(type, prop, val)`: nothing when the table is missing or has
      no entry under the key; otherwise a one-property style holding the
      entry's scaling in `em`, and never the absolute length. */
  function FallBack(table: Option<map<string, Step>>, prop: string, val: Option<string>): (r: Option<Style>)
    ensures r.None? <==> table.None? || KeyOf(val) !in table.value
    ensures r.Some? ==> r.value.Keys == {prop}
    ensures r.Some? ==> r.value[prop] == Em(table.value[KeyOf(val)].scaling)
  {
    match table
    case None => None
    case Some(m) =>
      var key := KeyOf(val);
      if key in m then Some(StyleOf(prop, m[key])) else None
  }

  /** No style `fallBack` returns holds an absolute length. */
  lemma FallBackNeverAbsolute(table: Option<map<string, Step>>, prop: string, val: Option<string>)
    requires FallBack(table, prop, val).Some?
    ensures forall p | p in FallBack(table, prop, val).value :: FallBack(table, prop, val).value[p].Em?
  {
  }

  /** The argument of `mapPadding`: `undefined`, a primitive (given as the
      string it converts to when used as a key), or an array of strings. */
  datatype PaddingArg = Missing | Primitive(text: string) | List(items: seq<string>)

  /** What `mapPadding` returns: one style, or an array of them. */
  datatype Padding = One(style: Option<Style>) | Many(styles: seq<Option<Style>>)

  /** `String(array)`: the elements joined by commas. */
  function Join(items: seq<string>): (s: string)
    ensures |items| == 1 ==> s == items[0]
    ensures |items| == 0 ==> s == ""
  {
    if |items| == 0 then ""
    else if |items| == 1 then items[0]
    else items[0] + "," + Join(items[1..])
  }

  /** Appending an element to a nonempty array appends a comma and the
      element to its string. */
  lemma {:induction false} JoinAppend(items: seq<string>, x: string)
    requires |items| > 0
    ensures Join(items + [x]) == Join(items) + "," + x
    decreases |items|
  {
    var longer := items + [x];
    if |items| > 1 {
      assert longer[1..] == items[1..] + [x];
      JoinAppend(items[1..], x);
    } else {
      assert longer[1..] == [x];
    }
  }

  /** `name` is a logical padding property on the block axis. */
  predicate BlockSide(name: string) {
    |name| >= 12 && name[..12] == "paddingBlock"
  }

  /** `name` is a logical padding property on the inline axis. */
  predicate InlineSide(name: string) {
    |name| >= 13 && name[..13] == "paddingInline"
  }

  /** The properties an array of 2, 3 or 4 sides is spread over; any other
      length falls back to the single `padding` property. The values
      alternate between the block and the inline axis, block first, and no
      property is set twice. */
  function SideNames(count: nat): (r: seq<string>)
    ensures 2 <= count <= 4 ==> |r| == count
    ensures !(2 <= count <= 4) ==> r == []
    ensures forall i | 0 <= i < |r| :: if i % 2 == 0 then BlockSide(r[i]) else InlineSide(r[i])
    ensures forall i, j | 0 <= i < j < |r| :: r[i] != r[j]
  {
    if count == 2 then ["paddingBlock", "paddingInline"]
    else if count == 3 then ["paddingBlockStart", "paddingInline", "paddingBlockEnd"]
    else if count == 4 then ["paddingBlockStart", "paddingInlineStart", "paddingBlockEnd", "paddingInlineEnd"]
    else []
  }

  /** `mapPadding(val)` against the spacing table `table`. Every side looks
      up the key of the whole array, so all sides of an array agree, and an
      array of any other length is looked up whole under `padding`. */
  function MapPadding(table: Option<map<string, Step>>, val: PaddingArg): (r: Padding)
    ensures val.List? && 2 <= |val.items| <= 4 ==>
              r.Many? && |r.styles| == |val.items| &&
              forall i | 0 <= i < |r.styles| ::
                r.styles[i] == FallBack(table, SideNames(|val.items|)[i], Some(Join(val.items)))
    ensures val.List? && !(2 <= |val.items| <= 4) ==>
              r == One(FallBack(table, "padding", Some(Join(val.items))))
    ensures val.Primitive? ==> r == One(FallBack(table, "padding", Some(val.text)))
    ensures val.Missing? ==> r == One(FallBack(table, "padding", None))
  {
    match val
    case List(items) =>
      var key := Some(Join(items));
      var names := SideNames(|items|);
      if |names| == 0 then One(FallBack(table, "padding", key))
      else Many(seq(|names|, i requires 0 <= i < |names| => FallBack(table, names[i], key)))
    case Primitive(text) => One(FallBack(table, "padding", Some(text)))
    case Missing => One(FallBack(table, "padding", None))
  }

  /** The sides of an array either all resolve or all miss, and all carry
      the same scaling: the position of a side never selects its own
      element. */
  lemma MapPaddingUniform(table: Option<map<string, Step>>, items: seq<string>, i: nat, j: nat)
    requires 2 <= |items| <= 4 && i < |items| && j < |items|
    ensures var r := MapPadding(table, List(items));
            && (r.styles[i].Some? <==> r.styles[j].Some?)
            && (r.styles[i].Some? ==>
                  r.styles[i].value[SideNames(|items|)[i]] == r.styles[j].value[SideNames(|items|)[j]])
  {
  }

  /** Two sides `["A", "B"]` look up the key `"A,B"`: a table holding
      entries for `"A"` and `"B"` but not `"A,B"` resolves neither side. */
  lemma MapPaddingWholeKey(m: map<string, Step>)
    requires "A" in m && "B" in m && "A,B" !in m
    ensures MapPadding(Some(m), List(["A", "B"])) == Many([None, None])
  {
    assert Join(["A", "B"]) == "A,B" by {
      assert ["A", "B"][1..] == ["B"];
    }
  }

  /** `mapPadding` as its index argument evidently intends: side `i` of an
      array of 2, 3 or 4 sides looks up its own element `val[i]`. */
  function MapPaddingCorrected(table: Option<map<string, Step>>, val: PaddingArg): (r: Padding)
    ensures val.List? && 2 <= |val.items| <= 4 ==>
              r.Many? && |r.styles| == |val.items| &&
              forall i | 0 <= i < |r.styles| ::
                r.styles[i] == FallBack(table, SideNames(|val.items|)[i], Some(val.items[i]))
    ensures !(val.List? && 2 <= |val.items| <= 4) ==> r == MapPadding(table, val)
  {
    match val
    case List(items) =>
      var names := SideNames(|items|);
      if |names| == 0 then One(FallBack(table, "padding", Some(Join(items))))
      else Many(seq(|names|, i requires 0 <= i < |names| => FallBack(table, names[i], Some(items[i]))))
    case _ => MapPadding(table, val)
  }

  /** With its elements looked up one by one, `["A", "B"]` resolves both
      sides from a table that has `"A"` and `"B"`. */
  lemma MapPaddingPerSide(m: map<string, Step>)
    requires "A" in m && "B" in m
    ensures MapPaddingCorrected(Some(m), List(["A", "B"])) ==
              Many([Some(map["paddingBlock" := Em(m["A"].scaling)]), Some(map["paddingInline" := Em(m["B"].scaling)])])
  {
    var r := MapPaddingCorrected(Some(m), List(["A", "B"]));
    assert r.styles[0] == FallBack(Some(m), "paddingBlock", Some("A"));
    assert r.styles[1] == FallBack(Some(m), "paddingInline", Some("B"));
    assert r.styles[0].value == map["paddingBlock" := Em(m["A"].scaling)];
    assert r.styles[1].value == map["paddingInline" := Em(m["B"].scaling)];
  }

  /** `mapFontSize(val)`: the `fontSize` property from the typography table. */
  function MapFontSize(table: Option<map<string, Step>>, val: Option<string>): (r: Option<Style>)
    ensures r.None? <==> table.None? || KeyOf(val) !in table.value
    ensures r.Some? ==> r.value == map["fontSize" := Em(table.value[KeyOf(val)].scaling)]
  {
    FallBack(table, "fontSize", val)
  }
}

=== FILE: typography.dfy ===
/** The typography configuration (src/config/typography.js): a modular
    scale with base 16 over the range [-3, 7], generated once when the
    module loads into initially empty `sequence` and `scales` tables. The
    ratio comes from a table that is not part of this model, so every
    property here holds for any nonzero ratio. */
module Typography {
  import opened Wrappers
  import opened Numbers
  import opened Scale
  import opened Tokens

  /** `defaultProps` for a given ratio. */
  function DefaultProps(ratio: real): (cfg: Config)
    requires ratio != 0.0
    ensures Valid(cfg) && cfg.lo <= 0 <= cfg.hi
    ensures cfg.base == 16.0 && cfg.hi - cfg.lo + 1 == 11
  {
    Config("font-size", 16.0, ratio, -3, 7)
  }

  /** The tables after the load-time call `generateSequence(defaultProps)`.
      The range straddles 0, so the loop as written visits exactly the
      offsets of the range, and the tables are computed that way. */
  function Table(ratio: real): (t: Tables)
    requires ratio != 0.0
    ensures t == GenerateSequence(DefaultProps(ratio), Tables(map[], map[]))
  {
    StraddlingAgrees(DefaultProps(ratio), Tables(map[], map[]));
    GenerateSequenceCorrected(DefaultProps(ratio), Tables(map[], map[]))
  }

  /** Both tables end with the same labels: one per offset of the range. */
  lemma TableLabels(ratio: real)
    requires ratio != 0.0
    ensures Table(ratio).sequence.Keys == Table(ratio).scales.Keys
    ensures forall k | -3 <= k <= 7 :: Label("font-size", k) in Table(ratio).sequence
  {
  }

  /** There are eleven of them, none the shared `undefined` label. */
  lemma TableHasElevenEntries(ratio: real)
    requires ratio != 0.0
    ensures |Table(ratio).sequence| == 11
    ensures UndefinedLabel("font-size") !in Table(ratio).sequence
  {
    InRangeCount(DefaultProps(ratio));
  }

  /** The highest offset is labelled `H`. */
  lemma TopLabel()
    ensures Label("font-size", 7) == "--font-size-H"
  {
    assert LetterText(7) == "H";
  }

  /** The lowest offset is labelled `X`. */
  lemma BottomLabel()
    ensures Label("font-size", -3) == "--font-size-X"
  {
    assert LetterText(-3) == "X";
  }

  /** The table runs from `H` down to `X`. */
  lemma TableEnds(ratio: real)
    requires ratio != 0.0
    ensures "--font-size-H" in Table(ratio).sequence
    ensures "--font-size-X" in Table(ratio).sequence
  {
    TableLabels(ratio);
    TopLabel();
    BottomLabel();
  }

  /** The base offset is labelled `A`. */
  lemma BaseLabel()
    ensures Label("font-size", 0) == "--font-size-A" == DefaultKey
  {
    assert LetterText(0) == "A";
  }

  /** The `A` entry is the base itself, whatever the ratio: 16 as a value
      and as a two-decimal value, with scaling 1 in both tables. */
  lemma TableBaseEntry(ratio: real)
    requires ratio != 0.0
    ensures "--font-size-A" in Table(ratio).sequence && "--font-size-A" in Table(ratio).scales
    ensures Table(ratio).sequence["--font-size-A"] == Step(16.0, 16, 1.0)
    ensures Table(ratio).scales["--font-size-A"] == 1.0
  {
    var cfg := DefaultProps(ratio);
    BaseLabel();
    StepAtZero(cfg);
    assert Round(16.0) == 16 by { RoundOfInteger(16); }
    assert Round(1600.0) == 1600 by { RoundOfInteger(1600); }
    GenerateParallel(cfg, cfg.hi - cfg.lo, Tables(map[], map[]));
    LabelsComplete(Namer(cfg.kind), cfg.lo, cfg.hi, 0);
  }

  /** `mapFontSize()` with no argument resolves the `A` entry to `1em`. */
  lemma DefaultFontSize(ratio: real)
    requires ratio != 0.0
    ensures MapFontSize(Some(Table(ratio).sequence), None) == Some(map["fontSize" := Em(1.0)])
  {
    TableBaseEntry(ratio);
  }
}

=== FILE: wrappers.dfy ===
/** The absent-or-present value that stands for JavaScript's `undefined`
    results throughout the model. */
module Wrappers {

  datatype Option<+T> = None | Some(value: T) {

    /** Returns the wrapped value, or `default` when there is none. */
    function GetOr(default: T): T {
      match this
      case Some(v) => v
      case None => default
    }
  }
}
